=== FILE: README.md ===
# djQuiz quiz logic in Dafny

The djQuiz project is a quiz player. A Django REST API serves quizzes, and a React front end lets a user answer them. This project models the answer logic of four iterations of the front-end page, plus the question serializer of the API:

- **Home-v1** (`HomeV1`) shows every question on one page. Answers are stored by question id, and the score is computed on demand.
- **Home-v3** (`HomeV3`) works the same way but adds two things:
  - a list of the questions not yet answered;
  - a `validateQuiz` gate, so that no score is produced until every question has a selection.
- **Home-v5** (`HomeV5`) shows one question at a time. It has Previous, Next and Submit buttons, an "answered" percentage, and a graded view. The page is modelled twice:
  - handler by handler;
  - as a transition system over the controls it shows (`Enabled`, `Step`, `Click`, `Run`). This corrected page runs the bounded Next of the finding below, not the handler as written, so the properties stated over `Click` and `Run` are marked "(corrected page)".
- **Home.tsx** (`Home`) is the current page. Its radio buttons carry numeric option ids, which are converted back to strings, and its check reads `answers.options` whatever the question type.
- **`QuizQuestionSerializer`** (`Serializer`) works in two steps:
  - `get_question_fields` picks the nested multiple-choice or true/false records;
  - `to_representation` flattens them into the question object under the keys `key_1`, `key_2`, ...

The three earlier pages declare the same `Question`/`Quiz` shapes and the same `handleAnswerCheck`, so these live once in `QuizModel`. Home-v1 and Home-v3 also share `handleOptionSelect`.

The JavaScript semantics the pages depend on are spelled out in `Js`:

- truthiness of an optional string;
- `parseInt` with radix 10 and with no radix, as in section 19.2.5 of ECMA-262. White space is skipped, a sign is read, and `0x` is recognised without a radix. The leading digit run is taken, and `NaN` is returned when there is none.
- integer `toString`;
- `Math.round` of an exact ratio.

Python's decimal rendering of an index is `Decimal.FromNat`. The generic count that every `calculateScore` performs is `Counting.CountWhere`.

The model follows the code, also where it differs from what a tidier quiz player would do:

- With no questions, `calculatePercentage` returns `NaN` rather than 0. The page never shows that value: the same render reads `.text` of the missing current question and throws (Home-v5-buttons-select-before-move-forward.tsx:174-186). The model keeps such a state outside `HomeV5.Valid`.
- Next is only gated on the current question having a truthy selection. There is no per-question timer.
- At the last question, Next does not grade. Grading happens only through the Submit button.

## Model

| member | source | states |
|---|---|---|
| QuizModel.FindOption | frontend-djquiz/src/pages/Home-v1.tsx:93-95 | `options.find(o => o.id === id)` returns nothing exactly when the id is NaN or no option has it, and otherwise returns the first option with that id |
| QuizModel.AnswerCheck | frontend-djquiz/src/pages/Home-v1.tsx:89-105 | The result is null exactly when the selection is falsy or the type is neither "mc" nor "tf". For "mc" it is true iff the selection parses (radix 10) to an id whose first option is correct. For "tf" it is true iff `true_answer` equals `selectedOption === "true"`. |
| QuizModel.CalculateScore | frontend-djquiz/src/pages/Home-v1.tsx:107-115 | The result is null exactly without a quiz. Otherwise the count lies in [0, number of questions]. It equals the number of questions iff every question checks true, and is 0 iff none does. |
| QuizModel.MarkSelected | frontend-djquiz/src/pages/Home-v1.tsx:76-84 | The map keeps the length. Questions with the given id take the new `selectedOption`, and all others are unchanged. |
| QuizModel.SelectById | frontend-djquiz/src/pages/Home-v3-multiple-types.tsx:83-101 | Without a quiz nothing happens. Otherwise only the questions with a matching id change, only their selection changes, and the quiz metadata is kept. |
| QuizModel.SelectByIdLastWriteWins | frontend-djquiz/src/pages/Home-v1.tsx:70-87 | Selecting twice for the same question id equals selecting only the second value |
| QuizModel.FirstMatchUnique | frontend-djquiz/src/pages/Home-v1.tsx:93-95 | The option that `find` returns is unique |
| QuizModel.UnmatchedMcSelectionIsIncorrect | frontend-djquiz/src/pages/Home-v1.tsx:92-97 | An "mc" selection that names no option, is not a number, or has no answer key checks false (never null) |
| QuizModel.MissingTrueAnswerIsIncorrect | frontend-djquiz/src/pages/Home-v1.tsx:99-102 | A "tf" question without `true_answer` always checks false |
| QuizModel.OptionButtonValueReadsBack | frontend-djquiz/src/pages/Home-v1.tsx:142-148 | A selection sent by an option radio (`option.id.toString()`) is correct iff the first option with that id is marked correct |
| QuizModel.McCheckRightOption | frontend-djquiz/src/pages/Home-v1.tsx:92-97 | With options 1 (wrong) and 2 (right), selecting "2" checks true |
| QuizModel.McCheckWrongOption | frontend-djquiz/src/pages/Home-v1.tsx:92-97 | With options 1 (wrong) and 2 (right), selecting "1" checks false |
| QuizModel.McCheckUnknownOption | frontend-djquiz/src/pages/Home-v1.tsx:92-97 | With options 1 and 2, the `toString` of any other id matches no option and checks false |
| HomeV1.NoSelectionsScoresZero | frontend-djquiz/src/pages/Home-v1.tsx:107-115 | A quiz with no truthy selection scores 0 |
| HomeV1.UnmatchedMcSelectionAddsNothing | frontend-djquiz/src/pages/Home-v1.tsx:89-115 | An "mc" selection that names no option leaves the score as if that question were unanswered |
| HomeV3.AllAnswered | frontend-djquiz/src/pages/Home-v3-multiple-types.tsx:123-127 | The loop finds no error iff every question has a truthy selection |
| HomeV3.ValidateQuiz | frontend-djquiz/src/pages/Home-v3-multiple-types.tsx:121-130 | The result is true iff there is no quiz or every question has a truthy selection |
| HomeV3.CalculateScore | frontend-djquiz/src/pages/Home-v3-multiple-types.tsx:132-141 | The result is null exactly without a quiz. It is undefined exactly when some question is unanswered. Otherwise the count lies in [0, n] and equals n iff every question checks true. |
| HomeV3.AllCorrectScoresEveryQuestion | frontend-djquiz/src/pages/Home-v3-multiple-types.tsx:132-141 | A quiz whose every question checks true scores the number of questions |
| HomeV3.Unanswered | frontend-djquiz/src/pages/Home-v3-multiple-types.tsx:77-81 | The filter holds exactly the questions with a falsy selection, each as often as the quiz does: no question occurs more often than in the quiz (multiset inclusion), and the length is the number of unanswered positions. `UnansweredIsSubsequence` adds that quiz order is kept. |
| HomeV3.UnansweredMultiplicity | frontend-djquiz/src/pages/Home-v3-multiple-types.tsx:77-81 | Each question occurs in the filter exactly as often as in the quiz if its selection is falsy, and not at all otherwise |
| HomeV3.UnansweredQuestions | frontend-djquiz/src/pages/Home-v3-multiple-types.tsx:77-81 | Without a quiz the list is empty. With one, it holds exactly the questions with a falsy selection, none more often than the quiz does, and its length is the number of unanswered positions. |
| HomeV3.UnansweredIsSubsequence | frontend-djquiz/src/pages/Home-v3-multiple-types.tsx:78-80 | The unanswered list keeps quiz order: it is a subsequence of the questions |
| HomeV3.UnansweredEmptyIffValid | frontend-djquiz/src/pages/Home-v3-multiple-types.tsx:77-130 | The unanswered list is empty iff `validateQuiz` succeeds |
| HomeV3.WithoutId | frontend-djquiz/src/pages/Home-v3-multiple-types.tsx:77-101 | Reference filter for `SelectRemovesFromUnanswered`, not page code: the result holds exactly the questions whose id differs from the given one (the body keeps their order and multiplicity) |
| HomeV3.SelectRemovesFromUnanswered | frontend-djquiz/src/pages/Home-v3-multiple-types.tsx:83-101 | Selecting a non-empty value for an id removes exactly the questions with that id from the unanswered filter, in order |
| HomeV3.SelectionShrinksUnanswered | frontend-djquiz/src/pages/Home-v3-multiple-types.tsx:77-101 | On the page, after a non-empty selection the unanswered list is the old one without that question id |
| HomeV5.HandleQuizGrade | frontend-djquiz/src/pages/Home-v5-buttons-select-before-move-forward.tsx:75-77 | Grading raises the graded flag and keeps the quiz and the index |
| HomeV5.GradeIdempotent | frontend-djquiz/src/pages/Home-v5-buttons-select-before-move-forward.tsx:75-77 | Grading twice is grading once |
| HomeV5.HandleOptionSelect | frontend-djquiz/src/pages/Home-v5-buttons-select-before-move-forward.tsx:79-93 | Without a quiz nothing happens. Otherwise the current question takes the value, and every other question, the index and the flag are unchanged. |
| HomeV5.SelectLastWriteWins | frontend-djquiz/src/pages/Home-v5-buttons-select-before-move-forward.tsx:79-93 | A second selection on the same question overrides the first |
| HomeV5.HandleNextQuestion | frontend-djquiz/src/pages/Home-v5-buttons-select-before-move-forward.tsx:124-128 | As written: the index rises by one iff the current question has a truthy selection, and otherwise nothing changes |
| HomeV5.NextPastLastQuestion | frontend-djquiz/src/pages/Home-v5-buttons-select-before-move-forward.tsx:124-128 | From the answered last question, Next is enabled and leaves no current question to show |
| HomeV5.NextPastLastQuestionExample | frontend-djquiz/src/pages/Home-v5-buttons-select-before-move-forward.tsx:234-240 | In a one-question true/false quiz, answering "true" and then clicking Next makes the state invalid |
| HomeV5.HandleNextQuestionBounded | frontend-djquiz/src/pages/Home-v5-buttons-select-before-move-forward.tsx:124-128 | Corrected: the index rises by one iff the current question is answered and is not the last. The index always stays inside the quiz. |
| HomeV5.HandlePrevQuestion | frontend-djquiz/src/pages/Home-v5-buttons-select-before-move-forward.tsx:130-132 | The index drops by one, and the quiz and the flag are kept |
| HomeV5.CalculatePercentage | frontend-djquiz/src/pages/Home-v5-buttons-select-before-move-forward.tsx:134-140 | The result is null exactly without a quiz, and NaN with no questions. Otherwise it is an integer in [0, 100] within one half of 100·answered/n, where answered counts `selectedOption !== undefined`. |
| HomeV5.RoundedPercentInRange | frontend-djquiz/src/pages/Home-v5-buttons-select-before-move-forward.tsx:139 | Rounding 100·a/n with 0 ≤ a ≤ n gives a value in [0, 100], 0 for a = 0 and 100 for a = n |
| HomeV5.PercentageEndpoints | frontend-djquiz/src/pages/Home-v5-buttons-select-before-move-forward.tsx:134-140 | A quiz with no selections shows 0%, and a fully selected one shows 100% |
| HomeV5.DisplayedPercentage | frontend-djquiz/src/pages/Home-v5-buttons-select-before-move-forward.tsx:182-184 | The shown value is at most 100. It is 0 without a quiz or without questions (null and NaN show as 0), and otherwise it is exactly the computed percentage. |
| HomeV5.Initial | frontend-djquiz/src/pages/Home-v5-buttons-select-before-move-forward.tsx:38-42 | The state before loading has no quiz, index 0 and no grade, and satisfies the invariant clicks keep |
| HomeV5.Enabled | frontend-djquiz/src/pages/Home-v5-buttons-select-before-move-forward.tsx:187-240 | Exactly on a shown, ungraded quiz with a current question: Next always, Previous iff the index is not 0, Submit iff at the last question, a selection iff an answer button of the current question sends that value. An enabled control implies a valid state. |
| HomeV5.ControlsOnScreen | frontend-djquiz/src/pages/Home-v5-buttons-select-before-move-forward.tsx:228-240 | On a shown, ungraded question, Next is offered, Previous exactly away from index 0, Submit exactly at the last index, and a selection exactly for the button values |
| HomeV5.SubmitAtLastGrades | frontend-djquiz/src/pages/Home-v5-buttons-select-before-move-forward.tsx:234-240 | At the last shown question, a Submit click grades and keeps the quiz, so the graded view is reachable |
| HomeV5.Offers | frontend-djquiz/src/pages/Home-v5-buttons-select-before-move-forward.tsx:187-227 | Definition: the values the answer buttons send, `option.id.toString()` for each "mc" option and "true"/"false" for "tf" |
| HomeV5.HasSelection | frontend-djquiz/src/pages/Home-v5-buttons-select-before-move-forward.tsx:137 | Definition: `selectedOption !== undefined`, so an empty string counts as answered |
| HomeV5.Step | frontend-djquiz/src/pages/Home-v5-buttons-select-before-move-forward.tsx:228-240 | (corrected page) An enabled control keeps the state valid. Exactly Submit grades, and only a selection changes the quiz. |
| HomeV5.Click | frontend-djquiz/src/pages/Home-v5-buttons-select-before-move-forward.tsx:228-240 | (corrected page) A click keeps a valid state valid, and changes nothing once graded |
| HomeV5.ClickPreservesValid | frontend-djquiz/src/pages/Home-v5-buttons-select-before-move-forward.tsx:228-240 | (corrected page) Any click keeps the index non-negative and, with a quiz, inside it |
| HomeV5.RunPreservesValid | frontend-djquiz/src/pages/Home-v5-buttons-select-before-move-forward.tsx:228-240 | (corrected page) Any sequence of clicks keeps the state valid |
| HomeV5.GradedFlagOnlyRises | frontend-djquiz/src/pages/Home-v5-buttons-select-before-move-forward.tsx:162-172 | (corrected page) Once graded, clicks change nothing, and only an enabled Submit raises the flag |
| HomeV5.GradedIsTerminal | frontend-djquiz/src/pages/Home-v5-buttons-select-before-move-forward.tsx:162-172 | (corrected page) No sequence of clicks leaves the graded state |
| HomeV5.NavigationKeepsAnswers | frontend-djquiz/src/pages/Home-v5-buttons-select-before-move-forward.tsx:124-132 | (corrected page) Previous, Next and Submit never change the quiz or its selections |
| HomeV5.NextGatedOnAnswer | frontend-djquiz/src/pages/Home-v5-buttons-select-before-move-forward.tsx:124-128 | (corrected page) Next advances by exactly one iff the current question is answered and is not the last, and otherwise changes nothing |
| HomeV5.PreviousStaysInRange | frontend-djquiz/src/pages/Home-v5-buttons-select-before-move-forward.tsx:228-233 | (corrected page) Previous, enabled only away from index 0, lowers the index by one without going negative |
| HomeV5.NextThenPreviousReturns | frontend-djquiz/src/pages/Home-v5-buttons-select-before-move-forward.tsx:124-132 | (corrected page) Next from an answered, non-last question followed by Previous restores the exact state |
| HomeV5.SelectionUnlocksNext | frontend-djquiz/src/pages/Home-v5-buttons-select-before-move-forward.tsx:187-227 | (corrected page) Every value an answer button sends is non-empty, so after any selection Next advances |
| HomeV5.GradedScoreInRange | frontend-djquiz/src/pages/Home-v5-buttons-select-before-move-forward.tsx:162-164 | (corrected page) After Submit, the graded view's score exists and lies between 0 and the number of questions |
| Home.MarkSelected | frontend-djquiz/src/pages/Home.tsx:72-77 | Questions with the id take `optionId.toString()`, and the others are unchanged |
| Home.HandleOptionSelect | frontend-djquiz/src/pages/Home.tsx:70-79 | Only the matching questions change, only in their selection, and the quiz metadata is kept |
| Home.AnswerCheck | frontend-djquiz/src/pages/Home.tsx:81-88 | The result is null exactly for a falsy selection. Otherwise it is true iff `answers` holds, as its first option with the `parseInt` (no radix) value of the selection, a correct option. |
| Home.CalculateScore | frontend-djquiz/src/pages/Home.tsx:90-97 | The result is null exactly without a quiz. Otherwise the count is at most the number of questions, and is 0 iff no question checks true. |
| Home.ScoreAtMostAnswered | frontend-djquiz/src/pages/Home.tsx:81-97 | The score never exceeds the number of questions with a truthy selection |
| Home.SelectThenCheck | frontend-djquiz/src/pages/Home.tsx:70-88 | After option id k is selected, the question checks true iff its first option with id k is correct (`toString`, then `parseInt`, round trip) |
| Home.CheckIgnoresQuestionType | frontend-djquiz/src/pages/Home.tsx:81-88 | Changing `question_type` never changes the check |
| Home.MissingAnswersNeverCorrect | frontend-djquiz/src/pages/Home.tsx:84-87 | A question without `answers` is never correct, and checks false once answered |
| Js.Truthy | frontend-djquiz/src/pages/Home-v1.tsx:90 | Definition: an optional string is truthy iff it is defined and not empty, the negation of `!question.selectedOption` (also Home-v3-multiple-types.tsx:124) |
| Js.TrimStart | frontend-djquiz/src/pages/Home-v1.tsx:94 | The result is the suffix left after removing every leading white-space character: all removed characters are white space, and the result does not start with one |
| Js.ParseInt | frontend-djquiz/src/pages/Home-v1.tsx:94 | `parseInt(s, 10)` is NaN exactly when, after leading white space and an optional sign, no decimal digit follows |
| Js.ParseIntAuto | frontend-djquiz/src/pages/Home.tsx:85 | `parseInt(s)` with no radix is NaN whenever radix 10 is, and equals `parseInt(s, 10)` unless the unsigned text starts with `0x` or `0X` |
| Js.ParseIntSkipsWhitespace | frontend-djquiz/src/pages/Home.tsx:85 | Leading white space never changes what `parseInt` reads |
| Js.ParseIntLeadingInteger | frontend-djquiz/src/pages/Home-v1.tsx:94 | `parseInt(s, 10)` reads the leading integer and ignores a non-digit tail |
| Js.ParseIntFromInt | frontend-djquiz/src/pages/Home.tsx:124-130 | `parseInt` (radix 10 or none) of `k.toString()` is k |
| Js.FromInt | frontend-djquiz/src/pages/Home.tsx:74 | `toString` is non-empty and starts with '-' exactly for negatives |
| Js.RoundRatio | frontend-djquiz/src/pages/Home-v5-buttons-select-before-move-forward.tsx:139 | `Math.round(p/q)` is the integer r with `q·r − q/2 ≤ p < q·r + q/2` |
| Counting.CountWhere | frontend-djquiz/src/pages/Home-v1.tsx:109-112 | The count lies in [0, length]. It equals the length iff every element matches, and 0 iff none does. |
| Counting.CountMonotone | frontend-djquiz/src/pages/Home.tsx:92-95 | A weaker predicate never counts fewer elements |
| Decimal.FromNat | djquiz/quiz/serializers.py:43 | The rendering is a non-empty digit string with no leading zero (except "0"), whose decimal value is the number |
| Decimal.FromNatInjective | djquiz/quiz/serializers.py:43 | Distinct numbers render differently |
| Serializer.GetQuestionFields | djquiz/quiz/serializers.py:28-35 | The result is a list exactly for "mc" and "tf". It has one record per related row, with the nested serializer's keys in order (`id`, `answers` or `id`, `true_answer`, `false_answer`) and the row's values. For any other type the result is None. |
| Serializer.BaseRepresentation | djquiz/quiz/serializers.py:23-26 | The base object has exactly the keys `id`, `question_type`, `text`, `explanation` |
| Serializer.SuffixedInjective | djquiz/quiz/serializers.py:43 | `f"{key}_{n}"` determines both the key and n |
| Serializer.SuffixedIsNotBaseKey | djquiz/quiz/serializers.py:43 | A suffixed key ends in a digit, so it is never a base key |
| Serializer.ApplyFresh | djquiz/quiz/serializers.py:43 | Assigning distinct keys that are not yet present adds exactly those entries, each with its value, and keeps every old entry |
| Serializer.FieldWritesDistinct | djquiz/quiz/serializers.py:41-43 | Records with distinct keys never produce two writes with the same key and number: within a record the keys differ, across records the numbers |
| Serializer.DistinctPairsDistinctTargets | djquiz/quiz/serializers.py:43 | Writes with distinct (key, number) pairs assign distinct `f"{key}_{number}"` keys |
| Serializer.McRecord | djquiz/quiz/serializers.py:11-14 | Definition: the nested "mc" record is `id` then `answers`, with the row's values |
| Serializer.TfRecord | djquiz/quiz/serializers.py:17-20 | Definition: the nested "tf" record is `id`, `true_answer`, `false_answer`, with the row's values |
| Serializer.Suffixed | djquiz/quiz/serializers.py:43 | Definition: `f"{key}_{n}"` is the key, an underscore and the decimal rendering of n; `SuffixedInjective` and `SuffixedIsNotBaseKey` state its properties |
| Serializer.FieldWrites | djquiz/quiz/serializers.py:41-43 | The writes of the nested loops, in loop order: one per nested field, none numbered below the first record's number |
| Serializer.Apply | djquiz/quiz/serializers.py:41-43 | The assignments keep every existing key and make every written `f"{key}_{number}"` a key |
| Serializer.ApplyAddsOnlyTargets | djquiz/quiz/serializers.py:41-43 | The assignments add no key other than the written `f"{key}_{number}"` keys |
| Serializer.ToRepresentation | djquiz/quiz/serializers.py:37-44 | The object always has the base fields, every other key ends in a digit, and a type other than "mc"/"tf" gets exactly the base representation |
| Serializer.FieldWritesAt | djquiz/quiz/serializers.py:41-43 | Field `key` of record i (0-based) is written with number n + i, after the fields of all earlier records |
| Serializer.Flatten | djquiz/quiz/serializers.py:37-44 | Every field of record i appears under `key_{i+1}` with its value, the base entries are kept, and the object grows by the number of nested fields |
| Serializer.RepresentationShape | djquiz/quiz/serializers.py:37-44 | For "mc"/"tf", the object has 4 + (nested field count) keys, keeps the base fields, and holds each nested value under its suffixed key. Any other type gets exactly the base representation. |
| Serializer.RepresentationSize | djquiz/quiz/serializers.py:28-44 | An "mc" question with n rows gets 4 + 2n keys, and a "tf" question gets 4 + 3n |

## Left out

- Fetching the quiz (axios), `localStorage` save and restore, and the `isLoading`/`hasErrors` flags are I/O. The quiz is a parameter of every operation.
- The `console.log(correctCount)` in `calculateScore` (Home-v1.tsx:113, Home-v3-multiple-types.tsx:139) is a logging side effect and is left out. It does not change the returned score.
- Rendering is left out. Of the view, only what decides the reachable controls (`Enabled`) and the displayed percentage is modelled.
- React batching and asynchronous state updates are left out. Each handler is one atomic step on the latest state.
- HomeV5.Step: a click on the Submit button, which sits inside the Next button, also bubbles to `handleNextQuestion`. The model's Submit only grades, because the graded view never reads the index.
- QuizModel.SelectById: Home-v3's extra `answered: true` marker is not modelled, because nothing reads it.
- HomeV3.ValidateQuiz: the `hasErrors` state it sets is not modelled, because it only drives the rendered "Please answer all questions before submitting." message (Home-v3-multiple-types.tsx:237-241). That flag equals `!ValidateQuiz(quiz)`.
- Home.HandleOptionSelect: Home.tsx mutates the question objects in place. Spreading a null quiz gives `{}`, and `updatedQuiz.questions.map` then throws (Home.tsx:71-72). The model takes a loaded quiz, because the handler is only reachable from a rendered quiz.
- Js.ParseIntFromInt and Home.SelectThenCheck: option ids are unbounded integers. Large ids lose precision as JavaScript doubles and are then printed in exponent form; neither effect is modelled. Likewise, a NaN `optionId`, which would print as "NaN", is not modelled.
- HomeV5.Step: Next runs the corrected `HandleNextQuestionBounded`, not the page's `handleNextQuestion`. At an answered last question the page moves the index past the end, while the model's Next changes nothing there. Every property stated over `Step`, `Click` and `Run` is a property of this corrected page; the as-written handler is covered by `HandleNextQuestion` and the finding below.
- HomeV5.Valid: a loaded quiz with no questions crashes the view at Home-v5-buttons-select-before-move-forward.tsx:186 (`currentQuestion.text` of undefined). `Valid`, and with it `RunPreservesValid`, excludes that state, and no control is enabled in it.
- HomeV5.CalculatePercentage: the division is exact, not floating point, so double rounding near halves is not modelled. For example, with 23 of 40 questions answered the page computes `Math.round((23 / 40) * 100)`, which is `Math.round(57.49999999999999)`, and shows 57%, while the model gives 58.
- Serializer.ToRepresentation: the result is a map, so the key order of the returned dictionary is not modelled.
- Serializer.McRecord: the "mc" nested serializer lists a field `answers` (serializers.py:14), but `MultipleChoiceQuestion` has `answer` (models.py:48; a migration renamed it). Django REST Framework would raise on that path. The model assumes the listed field exists and reads the row's answer value under that key.
- Django REST Framework internals, the model classes, admin, views, URLs and migrations are left out. A related row's `answers` JSON is an opaque `Value`.
- `QuizSerializer`, which only nests question representations in a list, is left out.
- The commented-out older serializers and handlers are left out.
- The per-question countdown timer, auto-advance, session reset and restore policy are left out. They are not part of the modelled pages; the timer exists only in an unmodelled copy of the page.

## Findings

| source | as written | input that shows it | evidently intended | confidence | as-written member | corrected member |
|---|---|---|---|---|---|---|
| frontend-djquiz/src/pages/Home-v5-buttons-select-before-move-forward.tsx:124-128 | `handleNextQuestion` adds one to the index whenever the current question has a selection, also at the last question. Its button stays on screen there, wrapping Submit. | A one-question true/false quiz, answered "true", then a click on the Next button outside Submit. The index becomes 1, and `quiz.questions[1]` is undefined when the view renders it. | Next advances only while a later question exists. At the last question only Submit (grading) moves on. | not executed | HomeV5.HandleNextQuestion, HomeV5.NextPastLastQuestion, HomeV5.NextPastLastQuestionExample | HomeV5.HandleNextQuestionBounded, HomeV5.Step, HomeV5.ClickPreservesValid, HomeV5.RunPreservesValid, HomeV5.NextGatedOnAnswer |

=== FILE: counting.dfy ===
/** Counting the elements of a sequence that satisfy a test, front to back,
    as the pages' `forEach`/`filter` loops do. */
module Counting {

  function CountWhere<T>(xs: seq<T>, p: T -> bool): (n: nat)
    ensures n <= |xs|
    ensures n == |xs| <==> forall i :: 0 <= i < |xs| ==> p(xs[i])
    ensures n == 0 <==> forall i :: 0 <= i < |xs| ==> !p(xs[i])
  {
    if |xs| == 0 then 0
    else
      var init := xs[..|xs| - 1];
      assert forall i :: 0 <= i < |init| ==> init[i] == xs[i];
      CountWhere(init, p) + (if p(xs[|xs| - 1]) then 1 else 0)
  }

  /** Two sequences that agree position by position on the test have the
      same count. */
  lemma {:induction false} CountCongruent<T, U>(a: seq<T>, p: T -> bool, b: seq<U>, q: U -> bool)
    requires |a| == |b|
    requires forall i :: 0 <= i < |a| ==> (p(a[i]) <==> q(b[i]))
    ensures CountWhere(a, p) == CountWhere(b, q)
  {
    if |a| > 0 {
      var a', b' := a[..|a| - 1], b[..|b| - 1];
      assert forall i :: 0 <= i < |a'| ==> a'[i] == a[i] && b'[i] == b[i];
      CountCongruent(a', p, b', q);
    }
  }

  /** A stronger test never counts more. */
  lemma {:induction false} CountMonotone<T>(xs: seq<T>, p: T -> bool, q: T -> bool)
    requires forall i :: 0 <= i < |xs| ==> p(xs[i]) ==> q(xs[i])
    ensures CountWhere(xs, p) <= CountWhere(xs, q)
  {
    if |xs| > 0 {
      var init := xs[..|xs| - 1];
      assert forall i :: 0 <= i < |init| ==> init[i] == xs[i];
      CountMonotone(init, p, q);
    }
  }

  /** The count splits off the first element, as a front-to-back loop
      sees it. */
  lemma {:induction false} CountHead<T>(xs: seq<T>, p: T -> bool)
    requires |xs| > 0
    ensures CountWhere(xs, p) == (if p(xs[0]) then 1 else 0) + CountWhere(xs[1..], p)
  {
    if |xs| > 1 {
      var init := xs[..|xs| - 1];
      assert forall i :: 0 <= i < |init| ==> init[i] == xs[i];
      CountHead(init, p);
      assert init[1..] == xs[1..][..|xs[1..]| - 1];
      assert xs[1..][|xs[1..]| - 1] == xs[|xs| - 1];
    }
  }
}

=== FILE: decimal.dfy ===
/** Decimal digit strings: the rendering of a non-negative integer that both
    JavaScript's `Number.prototype.toString()` and Python's `str`/f-strings
    produce for integers, and its value. */
module Decimal {

  predicate IsDigit(c: char) {
    '0' <= c <= '9'
  }

  function DigitValue(c: char): (d: nat)
    requires IsDigit(c)
    ensures d < 10
  {
    (c as int) - ('0' as int)
  }

  function DigitChar(d: nat): (c: char)
    requires d < 10
    ensures IsDigit(c) && DigitValue(c) == d
  {
    (('0' as int) + d) as char
  }

  predicate AllDigits(s: string) {
    forall i :: 0 <= i < |s| ==> IsDigit(s[i])
  }

  /** The value of a digit string, most significant digit first. */
  function Value(s: string): nat
    requires AllDigits(s)
  {
    if |s| == 0 then 0 else Value(s[..|s| - 1]) * 10 + DigitValue(s[|s| - 1])
  }

  /** The canonical decimal rendering of `n`: never empty, only digits, no
      leading zero except for `n == 0` itself, and it reads back as `n`. */
  function FromNat(n: nat): (s: string)
    ensures |s| > 0 && AllDigits(s)
    ensures s[0] == '0' ==> n == 0
    ensures Value(s) == n
  {
    if n < 10 then [DigitChar(n)]
    else
      var prefix := FromNat(n / 10);
      var s := prefix + [DigitChar(n % 10)];
      assert s[..|s| - 1] == prefix;
      s
  }

  /** Distinct numbers have distinct renderings. */
  lemma FromNatInjective(a: nat, b: nat)
    requires FromNat(a) == FromNat(b)
    ensures a == b
  {
    assert Value(FromNat(a)) == a;
  }
}

=== FILE: home.dfy ===
/** Home.tsx, the current page: every question on one page, answered with
    radio buttons that carry numeric option ids. Its question shape differs
    from the earlier pages: the options sit under `answers`, and the check
    ignores `question_type` altogether. */
module Home {
  import opened Wrappers
  import opened Js
  import QuizModel
  import opened Counting

  datatype Answers = Answers(options: seq<QuizModel.AnswerOption>)

  datatype Question = Question(
    id: int,
    questionType: string,
    text: string,
    explanation: string,
    answer: Option<bool>,
    answers: Option<Answers>,
    selectedOption: Option<string>)

  datatype Quiz = Quiz(
    id: int,
    name: string,
    description: string,
    createdAt: string,
    updatedAt: string,
    createdBy: int,
    questions: seq<Question>)

  /** `questions.map(...)` in `handleOptionSelect`: the questions with id
      `questionId` get `selectedOption = optionId.toString()`. */
  function MarkSelected(qs: seq<Question>, questionId: int, optionId: int): (r: seq<Question>)
    ensures |r| == |qs|
    ensures forall i :: 0 <= i < |qs| && qs[i].id == questionId ==>
      r[i] == qs[i].(selectedOption := Some(FromInt(optionId)))
    ensures forall i :: 0 <= i < |qs| && qs[i].id != questionId ==> r[i] == qs[i]
  {
    if |qs| == 0 then []
    else
      var head := if qs[0].id == questionId then qs[0].(selectedOption := Some(FromInt(optionId))) else qs[0];
      [head] + MarkSelected(qs[1..], questionId, optionId)
  }

  /** `handleOptionSelect(questionId, optionId)`, as a pure update of the
      loaded quiz: only the matching questions change, and only their
      selection. */
  function HandleOptionSelect(quiz: Quiz, questionId: int, optionId: int): (r: Quiz)
    ensures r.(questions := quiz.questions) == quiz
    ensures |r.questions| == |quiz.questions|
    ensures forall i :: 0 <= i < |quiz.questions| ==>
      r.questions[i] == if quiz.questions[i].id == questionId
                        then quiz.questions[i].(selectedOption := Some(FromInt(optionId)))
                        else quiz.questions[i]
  {
    quiz.(questions := MarkSelected(quiz.questions, questionId, optionId))
  }

  /** The selection names a correct option: it parses (default radix) to an
      id whose first option under `answers` is marked correct. */
  predicate PicksCorrectOption(answers: Option<Answers>, sel: string) {
    && answers.Some?
    && ParseIntAuto(sel).Some?
    && exists i :: 0 <= i < |answers.value.options| && QuizModel.IsFirstMatch(answers.value.options, i, ParseIntAuto(sel).value)
         && answers.value.options[i].isCorrect
  }

  /** `handleAnswerCheck`: `null` for a falsy selection; otherwise whether
      `answers.options` holds the selected option and it is correct,
      whatever the question type. */
  function AnswerCheck(q: Question): (r: Option<bool>)
    ensures r.None? <==> !Truthy(q.selectedOption)
    ensures Truthy(q.selectedOption) ==> (r == Some(true) <==> PicksCorrectOption(q.answers, q.selectedOption.value))
  {
    if !Truthy(q.selectedOption) then None
    else
      var found := if q.answers.Some? then QuizModel.FindOption(q.answers.value.options, ParseIntAuto(q.selectedOption.value)) else None;
      Some(found.Some? && found.value.isCorrect)
  }

  predicate IsCorrect(q: Question) {
    AnswerCheck(q) == Some(true)
  }

  /** `calculateScore`: `null` without a quiz, otherwise the count of
      correct questions, between 0 and the number of questions. */
  function CalculateScore(quiz: Option<Quiz>): (r: Option<nat>)
    ensures r.None? <==> quiz.None?
    ensures quiz.Some? ==> r.value <= |quiz.value.questions|
    ensures quiz.Some? ==>
      (r.value == 0 <==> forall i :: 0 <= i < |quiz.value.questions| ==> !IsCorrect(quiz.value.questions[i]))
  {
    match quiz
    case None => None
    case Some(z) => Some(CountWhere(z.questions, IsCorrect))
  }

  /** The question has a truthy selection. */
  predicate IsAnswered(q: Question) {
    Truthy(q.selectedOption)
  }

  /** Unanswered questions are not counted: the score never exceeds the
      number of questions with a truthy selection. */
  lemma ScoreAtMostAnswered(quiz: Quiz)
    ensures CalculateScore(Some(quiz)).value <= CountWhere(quiz.questions, IsAnswered)
  {
    CountMonotone(quiz.questions, IsCorrect, IsAnswered);
  }

  /** Round trip: after option `optionId` is selected for a question, the
      check looks up exactly that option id, so the question is correct iff
      the (first) option with that id is marked correct. */
  lemma SelectThenCheck(quiz: Quiz, questionId: int, optionId: int, i: nat)
    requires i < |quiz.questions| && quiz.questions[i].id == questionId
    ensures var q := quiz.questions[i];
      IsCorrect(HandleOptionSelect(quiz, questionId, optionId).questions[i]) <==>
        q.answers.Some? && exists j :: 0 <= j < |q.answers.value.options| && QuizModel.IsFirstMatch(q.answers.value.options, j, optionId)
                                       && q.answers.value.options[j].isCorrect
  {
    ParseIntFromInt(optionId);
  }

  /** The check does not look at `question_type`. */
  lemma CheckIgnoresQuestionType(q: Question, questionType: string)
    ensures AnswerCheck(q.(questionType := questionType)) == AnswerCheck(q)
  {
  }

  /** A question without `answers` (a true/false one, say) is never
      correct. */
  lemma MissingAnswersNeverCorrect(q: Question)
    requires q.answers.None?
    ensures !IsCorrect(q)
    ensures Truthy(q.selectedOption) ==> AnswerCheck(q) == Some(false)
  {
  }
}

=== FILE: home_v1.dfy ===
/** Home-v1: every question on one page, answers recorded by question id
    (`QuizModel.SelectById`), and a score computed on demand without any
    completeness check (`QuizModel.CalculateScore`). */
module HomeV1 {
  import opened Wrappers
  import opened Js
  import opened QuizModel
  import opened Counting

  /** A quiz on which nothing has been selected scores 0: every unanswered
      question checks to `null`. */
  lemma NoSelectionsScoresZero(quiz: Quiz)
    requires forall i :: 0 <= i < |quiz.questions| ==> !Truthy(quiz.questions[i].selectedOption)
    ensures CalculateScore(Some(quiz)) == Some(0)
  {
  }

  /** A multiple-choice selection that names no option of its question adds
      nothing: the score is the same as if that question were unanswered. */
  lemma UnmatchedMcSelectionAddsNothing(quiz: Quiz, k: nat)
    requires k < |quiz.questions|
    requires var q := quiz.questions[k];
      && Truthy(q.selectedOption) && q.questionType == "mc"
      && (|| q.answer.None?
          || ParseInt(q.selectedOption.value).None?
          || forall j :: 0 <= j < |q.answer.value.options| ==> q.answer.value.options[j].id != ParseInt(q.selectedOption.value).value)
    ensures var qs := quiz.questions;
      CalculateScore(Some(quiz)) == CalculateScore(Some(quiz.(questions := qs[k := qs[k].(selectedOption := None)])))
  {
    var qs := quiz.questions;
    var cleared := qs[k := qs[k].(selectedOption := None)];
    UnmatchedMcSelectionIsIncorrect(qs[k]);
    CountCongruent(qs, IsCorrect, cleared, IsCorrect);
  }
}

=== FILE: home_v3.dfy ===
/** Home-v3: every question on one page, answers recorded by question id
    (`QuizModel.SelectById`; the page also adds an `answered: true` marker
    that nothing reads), a list of the still unanswered questions, and a
    score that is only computed once every question is answered. */
module HomeV3 {
  import opened Wrappers
  import opened Js
  import opened QuizModel
  import opened Counting

  /** Every question has a truthy selection. */
  function AllAnswered(qs: seq<Question>): (r: bool)
    ensures r <==> forall i :: 0 <= i < |qs| ==> Truthy(qs[i].selectedOption)
  {
    if |qs| == 0 then true
    else Truthy(qs[0].selectedOption) && AllAnswered(qs[1..])
  }

  /** `validateQuiz`: true iff no question has a falsy selection. Without a
      quiz the optional chain skips the loop, so it returns true. The
      page's `hasErrors` flag is set to the negation of the result. */
  function ValidateQuiz(quiz: Option<Quiz>): (r: bool)
    ensures r <==> quiz.None? || forall i :: 0 <= i < |quiz.value.questions| ==> Truthy(quiz.value.questions[i].selectedOption)
  {
    quiz.None? || AllAnswered(quiz.value.questions)
  }

  /** What `calculateScore` returns: `null` without a quiz, `undefined`
      when validation fails, otherwise a count. */
  datatype ScoreResult = Null | Undefined | Score(correct: nat)

  /** `calculateScore`, gated by `validateQuiz`. */
  function CalculateScore(quiz: Option<Quiz>): (r: ScoreResult)
    ensures r.Null? <==> quiz.None?
    ensures r.Undefined? <==>
      quiz.Some? && exists i :: 0 <= i < |quiz.value.questions| && !Truthy(quiz.value.questions[i].selectedOption)
    ensures r.Score? ==> r.correct <= |quiz.value.questions|
    ensures r.Score? ==>
      (r.correct == |quiz.value.questions| <==> forall i :: 0 <= i < |quiz.value.questions| ==> IsCorrect(quiz.value.questions[i]))
  {
    if quiz.None? then Null
    else if !ValidateQuiz(quiz) then Undefined
    else Score(CountWhere(quiz.value.questions, IsCorrect))
  }

  /** A fully answered quiz whose every question checks `true` scores the
      number of questions. */
  lemma AllCorrectScoresEveryQuestion(quiz: Quiz)
    requires forall i :: 0 <= i < |quiz.questions| ==> IsCorrect(quiz.questions[i])
    ensures CalculateScore(Some(quiz)) == Score(|quiz.questions|)
  {
  }

  /** The question has no truthy selection. */
  predicate IsUnanswered(q: Question) {
    !Truthy(q.selectedOption)
  }

  /** `questions.filter((question) => !question.selectedOption)`: exactly
      the unanswered questions, each as often as it occurs. No question is
      kept more often than the quiz holds it, and the length is the number
      of unanswered positions, so every unanswered question is kept exactly
      as often as the quiz holds it. */
  function Unanswered(qs: seq<Question>): (r: seq<Question>)
    ensures |r| == CountWhere(qs, IsUnanswered)
    ensures forall q :: q in r <==> q in qs && !Truthy(q.selectedOption)
    ensures multiset(r) <= multiset(qs)
  {
    if |qs| == 0 then []
    else
      assert qs == [qs[0]] + qs[1..];
      CountHead(qs, IsUnanswered);
      (if Truthy(qs[0].selectedOption) then [] else [qs[0]]) + Unanswered(qs[1..])
  }

  /** The filter keeps each unanswered question exactly as often as the quiz
      holds it, and drops every answered one. */
  lemma {:induction false} UnansweredMultiplicity(qs: seq<Question>, q: Question)
    ensures multiset(Unanswered(qs))[q] == if Truthy(q.selectedOption) then 0 else multiset(qs)[q]
  {
    if |qs| > 0 {
      assert qs == [qs[0]] + qs[1..];
      UnansweredMultiplicity(qs[1..], q);
    }
  }

  /** The `unansweredQuestions` the effect derives from the quiz: the
      filter above, or `[]` without a quiz. */
  function UnansweredQuestions(quiz: Option<Quiz>): (r: seq<Question>)
    ensures quiz.None? ==> r == []
    ensures quiz.Some? ==> |r| == CountWhere(quiz.value.questions, IsUnanswered)
    ensures quiz.Some? ==> forall q :: q in r <==> q in quiz.value.questions && !Truthy(q.selectedOption)
    ensures quiz.Some? ==> multiset(r) <= multiset(quiz.value.questions)
  {
    match quiz
    case None => []
    case Some(z) => Unanswered(z.questions)
  }

  /** `a` is `b` with some elements left out, the rest in their order. */
  predicate IsSubsequence(a: seq<Question>, b: seq<Question>) {
    if |a| == 0 then true
    else if |b| == 0 then false
    else if a[0] == b[0] then IsSubsequence(a[1..], b[1..])
    else IsSubsequence(a, b[1..])
  }

  lemma {:induction false} SubsequenceOfTail(a: seq<Question>, b: seq<Question>)
    requires |b| > 0 && IsSubsequence(a, b[1..])
    ensures IsSubsequence(a, b)
    decreases |a| + |b|
  {
    if |a| > 0 && a[0] == b[0] {
      SubsequenceDropHead(a, b[1..]);
    }
  }

  lemma {:induction false} SubsequenceDropHead(a: seq<Question>, b: seq<Question>)
    requires |a| > 0 && IsSubsequence(a, b)
    ensures IsSubsequence(a[1..], b)
    decreases |a| + |b|
  {
    if a[0] == b[0] {
      SubsequenceOfTail(a[1..], b);
    } else {
      SubsequenceDropHead(a, b[1..]);
      SubsequenceOfTail(a[1..], b);
    }
  }

  /** The unanswered list keeps the questions in quiz order. */
  lemma {:induction false} UnansweredIsSubsequence(qs: seq<Question>)
    ensures IsSubsequence(Unanswered(qs), qs)
  {
    if |qs| > 0 {
      UnansweredIsSubsequence(qs[1..]);
      if !Truthy(qs[0].selectedOption) {
        assert Unanswered(qs) == [qs[0]] + Unanswered(qs[1..]);
        assert Unanswered(qs)[1..] == Unanswered(qs[1..]);
      } else {
        assert Unanswered(qs) == Unanswered(qs[1..]);
        SubsequenceOfTail(Unanswered(qs), qs);
      }
    }
  }

  /** The list of unanswered questions is empty exactly when the quiz
      validates. */
  lemma UnansweredEmptyIffValid(quiz: Option<Quiz>)
    ensures UnansweredQuestions(quiz) == [] <==> ValidateQuiz(quiz)
  {
    if quiz.Some? && UnansweredQuestions(quiz) != [] {
      assert UnansweredQuestions(quiz)[0] in Unanswered(quiz.value.questions);
    }
  }

  /** The questions of `qs` whose id is not `questionId`, in order. */
  function WithoutId(qs: seq<Question>, questionId: int): (r: seq<Question>)
    ensures forall q :: q in r <==> q in qs && q.id != questionId
  {
    if |qs| == 0 then []
    else (if qs[0].id == questionId then [] else [qs[0]]) + WithoutId(qs[1..], questionId)
  }

  /** Selecting a non-empty value for a question id removes exactly the
      questions with that id from the unanswered list. */
  lemma {:induction false} SelectRemovesFromUnanswered(qs: seq<Question>, questionId: int, optionValue: string)
    requires optionValue != ""
    ensures Unanswered(MarkSelected(qs, questionId, optionValue)) == WithoutId(Unanswered(qs), questionId)
  {
    if |qs| > 0 {
      var marked := MarkSelected(qs, questionId, optionValue);
      assert marked[1..] == MarkSelected(qs[1..], questionId, optionValue);
      SelectRemovesFromUnanswered(qs[1..], questionId, optionValue);
      WithoutIdDistributes(if Truthy(qs[0].selectedOption) then [] else [qs[0]], Unanswered(qs[1..]), questionId);
    }
  }

  lemma {:induction false} WithoutIdDistributes(a: seq<Question>, b: seq<Question>, questionId: int)
    requires |a| <= 1
    ensures WithoutId(a + b, questionId) == WithoutId(a, questionId) + WithoutId(b, questionId)
  {
    if |a| == 1 {
      assert (a + b)[1..] == b;
      assert a[1..] == [];
    } else {
      assert a + b == b;
    }
  }

  /** On the page: after selecting a non-empty value for a question id, the
      unanswered list is the old one without that id. */
  lemma SelectionShrinksUnanswered(quiz: Option<Quiz>, questionId: int, optionValue: string)
    requires optionValue != ""
    ensures UnansweredQuestions(SelectById(quiz, questionId, optionValue))
         == WithoutId(UnansweredQuestions(quiz), questionId)
  {
    if quiz.Some? {
      SelectRemovesFromUnanswered(quiz.value.questions, questionId, optionValue);
    }
  }
}

=== FILE: home_v5.dfy ===
/** Home-v5: one question at a time. The page keeps the quiz (with the
    selections), the index of the visible question and a graded flag;
    Previous/Next/Submit buttons move between questions and finish the
    quiz. The handlers are modelled one by one, and the page itself as a
    transition system over the controls it shows. */
module HomeV5 {
  import opened Wrappers
  import opened Js
  import opened QuizModel
  import opened Counting

  /** The state of the page apart from the fetch flags. */
  datatype Session = Session(quiz: Option<Quiz>, currentQuestionIndex: int, isQuizGraded: bool)

  /** The state before anything is loaded: no quiz, index 0, not graded.
      It satisfies the invariant every click keeps. */
  function Initial(): (r: Session)
    ensures Valid(r) && r.quiz.None? && r.currentQuestionIndex == 0 && !r.isQuizGraded
  {
    Session(None, 0, false)
  }

  /** A quiz is loaded and the index points into it, so the view has a
      question to show. */
  predicate HasCurrentQuestion(s: Session) {
    s.quiz.Some? && 0 <= s.currentQuestionIndex < |s.quiz.value.questions|
  }

  function CurrentQuestion(s: Session): Question
    requires HasCurrentQuestion(s)
  {
    s.quiz.value.questions[s.currentQuestionIndex]
  }

  /** The index is never negative, and with a quiz loaded it names one of
      its questions. A loaded quiz without questions is outside: the page
      cannot render it, since it reads the text of a missing question. */
  predicate Valid(s: Session) {
    s.currentQuestionIndex >= 0 && (s.quiz.Some? ==> HasCurrentQuestion(s))
  }

  /** `handleQuizGrade`: raise the graded flag. */
  function HandleQuizGrade(s: Session): (r: Session)
    ensures r.isQuizGraded
    ensures r.quiz == s.quiz && r.currentQuestionIndex == s.currentQuestionIndex
  {
    s.(isQuizGraded := true)
  }

  /** Grading twice is grading once. */
  lemma GradeIdempotent(s: Session)
    ensures HandleQuizGrade(HandleQuizGrade(s)) == HandleQuizGrade(s)
  {
  }

  /** `handleOptionSelect(optionValue)`: without a quiz nothing happens;
      otherwise the question at the current index takes the value and
      nothing else changes. The handler is only reachable while that
      question is shown. */
  function HandleOptionSelect(s: Session, optionValue: string): (r: Session)
    requires s.quiz.Some? ==> HasCurrentQuestion(s)
    ensures s.quiz.None? ==> r == s
    ensures r.currentQuestionIndex == s.currentQuestionIndex && r.isQuizGraded == s.isQuizGraded
    ensures s.quiz.Some? ==> r.quiz.Some? && r.quiz.value.(questions := s.quiz.value.questions) == s.quiz.value
    ensures s.quiz.Some? ==> |r.quiz.value.questions| == |s.quiz.value.questions|
    ensures s.quiz.Some? ==> CurrentQuestion(r) == CurrentQuestion(s).(selectedOption := Some(optionValue))
    ensures s.quiz.Some? ==> forall i :: 0 <= i < |s.quiz.value.questions| && i != s.currentQuestionIndex ==>
      r.quiz.value.questions[i] == s.quiz.value.questions[i]
  {
    match s.quiz
    case None => s
    case Some(z) =>
      var k := s.currentQuestionIndex;
      s.(quiz := Some(z.(questions := z.questions[k := z.questions[k].(selectedOption := Some(optionValue))])))
  }

  /** Selecting twice on the same question keeps only the second value. */
  lemma SelectLastWriteWins(s: Session, first: string, second: string)
    requires s.quiz.Some? ==> HasCurrentQuestion(s)
    ensures HandleOptionSelect(HandleOptionSelect(s, first), second) == HandleOptionSelect(s, second)
  {
    if s.quiz.Some? {
      var a := HandleOptionSelect(HandleOptionSelect(s, first), second).quiz.value.questions;
      var b := HandleOptionSelect(s, second).quiz.value.questions;
      assert a == b;
    }
  }

  /** `handleNextQuestion` as written: one step forward whenever the current
      question has a truthy selection, also from the last question. */
  function HandleNextQuestion(s: Session): (r: Session)
    requires HasCurrentQuestion(s)
    ensures r.quiz == s.quiz && r.isQuizGraded == s.isQuizGraded
    ensures r.currentQuestionIndex == s.currentQuestionIndex + 1 || r.currentQuestionIndex == s.currentQuestionIndex
    ensures r.currentQuestionIndex == s.currentQuestionIndex + 1 <==> Truthy(CurrentQuestion(s).selectedOption)
  {
    if Truthy(CurrentQuestion(s).selectedOption) then s.(currentQuestionIndex := s.currentQuestionIndex + 1) else s
  }

  /** From the last question, once it is answered, the Next button (which
      wraps the Submit button) moves the index past the end: the view then
      has no current question to render. */
  lemma NextPastLastQuestion(s: Session)
    requires HasCurrentQuestion(s) && !s.isQuizGraded
    requires s.currentQuestionIndex == |s.quiz.value.questions| - 1
    requires Truthy(CurrentQuestion(s).selectedOption)
    ensures Enabled(s, Next)
    ensures !HasCurrentQuestion(HandleNextQuestion(s)) && !Valid(HandleNextQuestion(s))
  {
  }

  /** A one-question true/false quiz answered "true" is such a state. */
  lemma NextPastLastQuestionExample()
    ensures var q := Question(1, "tf", "Is the sky blue?", "", None, None, Some(true));
      var s := Session(Some(Quiz(None, "Quiz", "", "", "", 1, [q])), 0, false);
      && Enabled(s, SelectOption("true"))
      && Enabled(Step(s, SelectOption("true")), Next)
      && !Valid(HandleNextQuestion(Step(s, SelectOption("true"))))
  {
    var q := Question(1, "tf", "Is the sky blue?", "", None, None, Some(true));
    var s := Session(Some(Quiz(None, "Quiz", "", "", "", 1, [q])), 0, false);
    var s1 := Step(s, SelectOption("true"));
    NextPastLastQuestion(s1);
  }

  /** `handleNextQuestion` as intended: one step forward when the current
      question has a truthy selection and is not the last one. The index
      never leaves the quiz. */
  function HandleNextQuestionBounded(s: Session): (r: Session)
    requires HasCurrentQuestion(s)
    ensures HasCurrentQuestion(r)
    ensures r.quiz == s.quiz && r.isQuizGraded == s.isQuizGraded
    ensures r.currentQuestionIndex == s.currentQuestionIndex + 1 || r.currentQuestionIndex == s.currentQuestionIndex
    ensures r.currentQuestionIndex == s.currentQuestionIndex + 1 <==>
      Truthy(CurrentQuestion(s).selectedOption) && s.currentQuestionIndex < |s.quiz.value.questions| - 1
  {
    if Truthy(CurrentQuestion(s).selectedOption) && s.currentQuestionIndex + 1 < |s.quiz.value.questions| then
      s.(currentQuestionIndex := s.currentQuestionIndex + 1)
    else s
  }

  /** `handlePrevQuestion`: one step back, unguarded; the button is
      disabled at index 0. */
  function HandlePrevQuestion(s: Session): (r: Session)
    ensures r.quiz == s.quiz && r.isQuizGraded == s.isQuizGraded
    ensures r.currentQuestionIndex == s.currentQuestionIndex - 1
  {
    s.(currentQuestionIndex := s.currentQuestionIndex - 1)
  }

  /** The question has any selection at all (`selectedOption !==
      undefined`, so an empty string counts). */
  predicate HasSelection(q: Question) {
    q.selectedOption.Some?
  }

  /** `calculatePercentage`: `null` without a quiz, `NaN` for a quiz without
      questions (0 / 0), otherwise `Math.round(answered / n * 100)`, the
      integer nearest to 100 * answered / n with halves rounded up. */
  function CalculatePercentage(quiz: Option<Quiz>): (r: Option<Number>)
    ensures r.None? <==> quiz.None?
    ensures quiz.Some? && |quiz.value.questions| == 0 ==> r == Some(NaN)
    ensures quiz.Some? && |quiz.value.questions| > 0 ==>
      var n := |quiz.value.questions|;
      var answered := CountWhere(quiz.value.questions, HasSelection);
      && r.value.Int?
      && 0 <= r.value.value <= 100
      && 2 * n * r.value.value - n <= 200 * answered < 2 * n * r.value.value + n
  {
    match quiz
    case None => None
    case Some(z) =>
      if |z.questions| == 0 then Some(NaN)
      else
        var p := RoundRatio(100 * CountWhere(z.questions, HasSelection), |z.questions|);
        RoundedPercentInRange(CountWhere(z.questions, HasSelection), |z.questions|, p);
        Some(Int(p))
  }

  lemma MulMonotone(n: nat, a: int, b: int)
    requires a <= b
    ensures n * a <= n * b
  {
  }

  /** Rounding 100 * a / n for 0 <= a <= n lands in [0, 100], on 0 for
      a == 0 and on 100 for a == n. */
  lemma RoundedPercentInRange(a: nat, n: nat, r: int)
    requires 0 < n && a <= n
    requires 2 * n * r - n <= 200 * a < 2 * n * r + n
    ensures 0 <= r <= 100
    ensures a == 0 ==> r == 0
    ensures a == n ==> r == 100
  {
    if r > 100 {
      MulMonotone(n, 101, r);
    }
    if r < 0 {
      MulMonotone(n, r, -1);
    }
    if a == 0 && r > 0 {
      MulMonotone(n, 1, r);
    }
    if a == n && r < 100 {
      MulMonotone(n, r, 99);
    }
  }

  /** A loaded quiz with no selection shows 0%, one with every question
      selected shows 100%. */
  lemma PercentageEndpoints(quiz: Quiz)
    requires |quiz.questions| > 0
    ensures (forall i :: 0 <= i < |quiz.questions| ==> quiz.questions[i].selectedOption.None?) ==>
      CalculatePercentage(Some(quiz)) == Some(Int(0))
    ensures (forall i :: 0 <= i < |quiz.questions| ==> quiz.questions[i].selectedOption.Some?) ==>
      CalculatePercentage(Some(quiz)) == Some(Int(100))
  {
    var n := |quiz.questions|;
    var p := CalculatePercentage(Some(quiz)).value.value;
    RoundedPercentInRange(CountWhere(quiz.questions, HasSelection), n, p);
  }

  /** The percentage as displayed, `calculatePercentage() || 0`: `null`,
      `NaN` and 0 all show as 0. */
  function DisplayedPercentage(quiz: Option<Quiz>): (r: nat)
    ensures r <= 100
    ensures quiz.None? || |quiz.value.questions| == 0 ==> r == 0
    ensures quiz.Some? && |quiz.value.questions| > 0 ==> Some(Int(r)) == CalculatePercentage(quiz)
  {
    match CalculatePercentage(quiz)
    case Some(Int(p)) => p
    case _ => 0
  }

  /** The controls of the page. */
  datatype Event = SelectOption(optionValue: string) | Next | Previous | Submit

  /** `v` is the value one of the answer buttons of `q` sends: an option's
      `id.toString()` for "mc", "true" or "false" for "tf". */
  predicate Offers(q: Question, v: string) {
    || (q.questionType == "mc" && q.answer.Some?
        && exists i :: 0 <= i < |q.answer.value.options| && v == FromInt(q.answer.value.options[i].id))
    || (q.questionType == "tf" && (v == "true" || v == "false"))
  }

  /** The control for `e` is on screen and enabled: a quiz is shown (not yet
      graded, with a current question); Previous is disabled at index 0;
      Submit appears at the last question; Next is always there. */
  predicate Enabled(s: Session, e: Event)
    ensures Enabled(s, e) ==> Valid(s) && s.quiz.Some?
    ensures Enabled(s, e) && e == Previous ==> 1 <= s.currentQuestionIndex
    ensures !s.isQuizGraded && HasCurrentQuestion(s) ==>
      (Enabled(s, e) <==>
         match e
         case SelectOption(v) => Offers(CurrentQuestion(s), v)
         case Next => true
         case Previous => s.currentQuestionIndex != 0
         case Submit => s.currentQuestionIndex == |s.quiz.value.questions| - 1)
  {
    && !s.isQuizGraded
    && HasCurrentQuestion(s)
    && match e
       case SelectOption(v) => Offers(CurrentQuestion(s), v)
       case Next => true
       case Previous => s.currentQuestionIndex != 0
       case Submit => s.currentQuestionIndex == |s.quiz.value.questions| - 1
  }

  /** On a shown, ungraded question the page offers Next, offers Previous
      exactly away from the first question and Submit exactly at the last,
      and accepts exactly the values its answer buttons send. */
  lemma ControlsOnScreen(s: Session)
    requires !s.isQuizGraded && HasCurrentQuestion(s)
    ensures Enabled(s, Next)
    ensures Enabled(s, Previous) <==> s.currentQuestionIndex != 0
    ensures Enabled(s, Submit) <==> s.currentQuestionIndex == |s.quiz.value.questions| - 1
    ensures forall v :: Enabled(s, SelectOption(v)) <==> Offers(CurrentQuestion(s), v)
  {
  }

  /** Grading is reachable: Submit at the last shown question grades. */
  lemma SubmitAtLastGrades(s: Session)
    requires !s.isQuizGraded && HasCurrentQuestion(s)
    requires s.currentQuestionIndex == |s.quiz.value.questions| - 1
    ensures Click(s, Submit).isQuizGraded
    ensures Click(s, Submit).quiz == s.quiz
  {
  }

  /** The handler an enabled control runs, with the corrected Next: the
      state stays valid, only Submit grades, and only a selection touches
      the quiz. */
  function Step(s: Session, e: Event): (r: Session)
    requires Enabled(s, e)
    ensures Valid(r)
    ensures r.isQuizGraded <==> e == Submit
    ensures !e.SelectOption? ==> r.quiz == s.quiz
  {
    match e
    case SelectOption(v) => HandleOptionSelect(s, v)
    case Next => HandleNextQuestionBounded(s)
    case Previous => HandlePrevQuestion(s)
    case Submit => HandleQuizGrade(s)
  }

  /** A click: an enabled control runs its handler, anything else is
      ignored. */
  function Click(s: Session, e: Event): (r: Session)
    ensures Valid(s) ==> Valid(r)
    ensures s.isQuizGraded ==> r == s
  {
    if Enabled(s, e) then Step(s, e) else s
  }

  /** A sequence of clicks, in order. */
  function Run(s: Session, es: seq<Event>): Session
    decreases |es|
  {
    if |es| == 0 then s else Run(Click(s, es[0]), es[1..])
  }

  /** Every click keeps the index inside the quiz. */
  lemma ClickPreservesValid(s: Session, e: Event)
    requires Valid(s)
    ensures Valid(Click(s, e))
  {
  }

  lemma {:induction false} RunPreservesValid(s: Session, es: seq<Event>)
    requires Valid(s)
    ensures Valid(Run(s, es))
    decreases |es|
  {
    if |es| > 0 {
      ClickPreservesValid(s, es[0]);
      RunPreservesValid(Click(s, es[0]), es[1..]);
    }
  }

  /** Only Submit raises the graded flag, and nothing lowers it. */
  lemma GradedFlagOnlyRises(s: Session, e: Event)
    ensures s.isQuizGraded ==> Click(s, e) == s
    ensures !s.isQuizGraded && Click(s, e).isQuizGraded ==> e == Submit && Enabled(s, Submit)
  {
  }

  /** Once graded, no sequence of clicks changes the state. */
  lemma {:induction false} GradedIsTerminal(s: Session, es: seq<Event>)
    requires s.isQuizGraded
    ensures Run(s, es) == s
    decreases |es|
  {
    if |es| > 0 {
      GradedFlagOnlyRises(s, es[0]);
      GradedIsTerminal(s, es[1..]);
    }
  }

  /** Navigation and grading never alter the quiz or its selections. */
  lemma NavigationKeepsAnswers(s: Session, e: Event)
    requires !e.SelectOption?
    ensures Click(s, e).quiz == s.quiz
  {
  }

  /** Next moves forward by exactly one when the current question has a
      truthy selection and is not the last; otherwise nothing moves. */
  lemma NextGatedOnAnswer(s: Session)
    requires Enabled(s, Next)
    ensures var r := Click(s, Next);
      && (r.currentQuestionIndex == s.currentQuestionIndex + 1 <==>
           Truthy(CurrentQuestion(s).selectedOption) && s.currentQuestionIndex < |s.quiz.value.questions| - 1)
      && (r.currentQuestionIndex != s.currentQuestionIndex + 1 ==> r == s)
  {
  }

  /** Previous lowers the index by exactly one and, being disabled at 0,
      never makes it negative. */
  lemma PreviousStaysInRange(s: Session)
    requires Valid(s) && Enabled(s, Previous)
    ensures Click(s, Previous).currentQuestionIndex == s.currentQuestionIndex - 1 >= 0
    ensures Click(s, Previous).quiz == s.quiz
  {
  }

  /** Next from an answered, non-last question followed by Previous returns
      to exactly the state before. */
  lemma NextThenPreviousReturns(s: Session)
    requires Enabled(s, Next)
    requires Truthy(CurrentQuestion(s).selectedOption)
    requires s.currentQuestionIndex < |s.quiz.value.questions| - 1
    ensures Enabled(Click(s, Next), Previous)
    ensures Click(Click(s, Next), Previous) == s
  {
  }

  /** Any answer button unlocks Next: every offered value is a non-empty
      string. */
  lemma SelectionUnlocksNext(s: Session, v: string)
    requires Enabled(s, SelectOption(v))
    requires s.currentQuestionIndex < |s.quiz.value.questions| - 1
    ensures Click(Click(s, SelectOption(v)), Next).currentQuestionIndex == s.currentQuestionIndex + 1
  {
    var q := CurrentQuestion(s);
    if q.questionType == "mc" && q.answer.Some? && exists i :: 0 <= i < |q.answer.value.options| && v == FromInt(q.answer.value.options[i].id) {
      var i :| 0 <= i < |q.answer.value.options| && v == FromInt(q.answer.value.options[i].id);
      assert |v| > 0;
    }
    assert v != "";
  }

  /** The graded view shows a score between 0 and the number of
      questions. */
  lemma GradedScoreInRange(s: Session)
    requires Enabled(s, Submit)
    ensures var r := Click(s, Submit);
      && r.isQuizGraded
      && CalculateScore(r.quiz).Some?
      && CalculateScore(r.quiz).value <= |r.quiz.value.questions|
  {
  }
}

=== FILE: js.dfy ===
/** The pieces of JavaScript semantics the quiz pages rely on: truthiness of
    an optional string, `parseInt` (section 19.2.5 of ECMA-262) with radix 10
    and with the default radix, integer `toString`, and `Math.round` applied
    to an exact ratio. */
module Js {
  import opened Wrappers
  import Decimal

  /** `!!s` for a value of type `string | undefined`: both `undefined` and
      the empty string are falsy. */
  predicate Truthy(s: Option<string>) {
    s.Some? && s.value != ""
  }

  /** The numbers the pages compute with: an integer, or `NaN`. */
  datatype Number = NaN | Int(value: int)

  /** StrWhiteSpaceChar of ECMA-262: the WhiteSpace code points (TAB, VT, FF,
      ZWNBSP and the Unicode space separators) and the LineTerminators
      (LF, CR, LS, PS), by code point. */
  predicate IsWhitespace(c: char) {
    var n := c as int;
    if n < 0x80 then
      9 <= n <= 13 || n == 32
    else
      || n == 0xA0 || n == 0x1680 || 0x2000 <= n <= 0x200A || n == 0x2028 || n == 0x2029
      || n == 0x202F || n == 0x205F || n == 0x3000 || n == 0xFEFF
  }

  /** The string with its leading white space removed. */
  function TrimStart(s: string): (r: string)
    ensures |r| <= |s| && r == s[|s| - |r|..]
    ensures forall i :: 0 <= i < |s| - |r| ==> IsWhitespace(s[i])
    ensures |r| > 0 ==> !IsWhitespace(r[0])
  {
    if |s| > 0 && IsWhitespace(s[0]) then TrimStart(s[1..]) else s
  }

  /** A digit of radix 16 when `hex` holds, of radix 10 otherwise. */
  predicate IsRadixDigit(c: char, hex: bool) {
    Decimal.IsDigit(c) || (hex && ('a' <= c <= 'f' || 'A' <= c <= 'F'))
  }

  function RadixDigitValue(c: char, hex: bool): (d: nat)
    requires IsRadixDigit(c, hex)
    ensures d < (if hex then 16 else 10)
  {
    if Decimal.IsDigit(c) then Decimal.DigitValue(c)
    else if 'a' <= c <= 'f' then (c as int) - ('a' as int) + 10
    else (c as int) - ('A' as int) + 10
  }

  /** The length of the longest prefix of `s` made of radix digits. */
  function DigitRun(s: string, hex: bool): (n: nat)
    ensures n <= |s|
    ensures forall i :: 0 <= i < n ==> IsRadixDigit(s[i], hex)
    ensures n < |s| ==> !IsRadixDigit(s[n], hex)
  {
    if |s| > 0 && IsRadixDigit(s[0], hex) then 1 + DigitRun(s[1..], hex) else 0
  }

  /** The value of a string of radix digits, most significant digit first. */
  function RadixValue(s: string, hex: bool): nat
    requires forall i :: 0 <= i < |s| ==> IsRadixDigit(s[i], hex)
  {
    if |s| == 0 then 0
    else RadixValue(s[..|s| - 1], hex) * (if hex then 16 else 10) + RadixDigitValue(s[|s| - 1], hex)
  }

  /** `parseInt(s, 10)` when `defaultRadix` is false and `parseInt(s)` when it
      is true: skip leading white space, take one optional sign, with the
      default radix switch to radix 16 after a `0x`/`0X` prefix, then read the
      longest run of digits. No digits at all gives `NaN`, here `None`. */
  function ParseIntWith(s: string, defaultRadix: bool): Option<int> {
    ParseTrimmed(TrimStart(s), defaultRadix)
  }

  /** `parseInt` on a string that starts with no white space. */
  function ParseTrimmed(t: string, defaultRadix: bool): Option<int> {
    var magnitude := ParseMagnitude(Unsigned(t), defaultRadix);
    if magnitude.None? then None
    else
      var v: int := magnitude.value;
      Some(if |t| > 0 && t[0] == '-' then -v else v)
  }

  /** The unsigned part of `parseInt`: the value of the longest run of
      leading digits, or `None` when there is none. */
  function ParseMagnitude(u: string, defaultRadix: bool): (r: Option<nat>)
    ensures !defaultRadix ==> (r.None? <==> |u| == 0 || !Decimal.IsDigit(u[0]))
  {
    var hex := defaultRadix && HexPrefix(u);
    var digits := if hex then u[2..] else u;
    var n := DigitRun(digits, hex);
    if n == 0 then None else Some(RadixValue(digits[..n], hex))
  }

  /** `parseInt(s, 10)`: `NaN` exactly when no decimal digit follows the
      leading white space and sign. */
  function ParseInt(s: string): (r: Option<int>)
    ensures r.None? <==> var u := Unsigned(TrimStart(s)); |u| == 0 || !Decimal.IsDigit(u[0])
  {
    ParseIntWith(s, false)
  }

  /** The unsigned part starts with `0x` or `0X`. */
  predicate HexPrefix(u: string) {
    |u| >= 2 && u[0] == '0' && (u[1] == 'x' || u[1] == 'X')
  }

  /** `parseInt(s)`, with no radix argument: `NaN` whenever radix 10 gives
      `NaN`, and the same value as radix 10 unless a `0x` prefix switches to
      radix 16. */
  function ParseIntAuto(s: string): (r: Option<int>)
    ensures ParseInt(s).None? ==> r.None?
    ensures !HexPrefix(Unsigned(TrimStart(s))) ==> r == ParseInt(s)
  {
    TrimmedWithoutHexPrefix(TrimStart(s));
    ParseIntWith(s, true)
  }

  /** Without a `0x` prefix both radix modes read the same digits, and where
      radix 10 finds no digit there is no such prefix. */
  lemma TrimmedWithoutHexPrefix(t: string)
    ensures !HexPrefix(Unsigned(t)) ==> ParseTrimmed(t, true) == ParseTrimmed(t, false)
    ensures ParseTrimmed(t, false).None? ==> ParseTrimmed(t, true).None?
  {
    var u := Unsigned(t);
    assert !HexPrefix(u) ==> ParseMagnitude(u, true) == ParseMagnitude(u, false);
  }

  /** The string after an optional leading sign. */
  function Unsigned(t: string): (u: string)
    ensures |u| <= |t| && u == t[|t| - |u|..]
  {
    if |t| > 0 && (t[0] == '-' || t[0] == '+') then t[1..] else t
  }

  /** `k.toString()` for an integer `k`. */
  function FromInt(k: int): (s: string)
    ensures |s| > 0
    ensures k < 0 <==> s[0] == '-'
  {
    if k < 0 then "-" + Decimal.FromNat(-k) else Decimal.FromNat(k)
  }

  /** `Math.round(p / q)` computed exactly: the nearest integer, halves
      rounded up (towards positive infinity). */
  function RoundRatio(p: int, q: int): (r: int)
    requires q > 0
    ensures 2 * q * r - q <= 2 * p < 2 * q * r + q
  {
    var r := (2 * p + q) / (2 * q);
    assert 2 * q * r <= 2 * p + q < 2 * q * r + 2 * q;
    r
  }

  lemma {:induction false} RadixValueDecimal(s: string)
    requires Decimal.AllDigits(s)
    ensures RadixValue(s, false) == Decimal.Value(s)
  {
    if |s| > 0 {
      RadixValueDecimal(s[..|s| - 1]);
    }
  }

  /** A decimal rendering followed by anything that does not start with a
      digit is read up to the end of the rendering. */
  lemma MagnitudeOfFromNat(n: nat, rest: string, defaultRadix: bool)
    requires |rest| == 0 || !Decimal.IsDigit(rest[0])
    requires defaultRadix ==> rest == []
    ensures ParseMagnitude(Decimal.FromNat(n) + rest, defaultRadix) == Some(n)
  {
    var d := Decimal.FromNat(n);
    var u := d + rest;
    assert forall i :: 0 <= i < |d| ==> u[i] == d[i];
    assert |d| < |u| ==> u[|d|] == rest[0];
    assert DigitRun(u, false) == |d|;
    assert u[..|d|] == d;
    RadixValueDecimal(d);
  }

  /** A string made only of white space. */
  predicate AllWhitespace(w: string) {
    |w| == 0 || (IsWhitespace(w[0]) && AllWhitespace(w[1..]))
  }

  /** Leading white space does not change what `parseInt` reads. */
  lemma ParseIntSkipsWhitespace(w: string, s: string, defaultRadix: bool)
    requires AllWhitespace(w)
    ensures ParseIntWith(w + s, defaultRadix) == ParseIntWith(s, defaultRadix)
  {
    TrimStartSkipsWhitespace(w, s);
  }

  lemma {:induction false} TrimStartSkipsWhitespace(w: string, s: string)
    requires AllWhitespace(w)
    ensures TrimStart(w + s) == TrimStart(s)
  {
    if |w| == 0 {
      assert w + s == s;
    } else {
      var ws := w + s;
      assert ws[0] == w[0];
      assert ws[1..] == w[1..] + s;
      TrimStartSkipsWhitespace(w[1..], s);
    }
  }

  /** The sign and the unsigned part of `k.toString()` followed by `rest`. */
  lemma SplitFromInt(k: int, rest: string)
    ensures var s := FromInt(k) + rest;
      && (|s| > 0 && s[0] == '-' <==> k < 0)
      && Unsigned(s) == Decimal.FromNat(if k < 0 then -k else k) + rest
  {
    var d := Decimal.FromNat(if k < 0 then -k else k);
    var s := FromInt(k) + rest;
    assert s[0] == FromInt(k)[0];
    if k < 0 {
      assert s == "-" + (d + rest);
    } else {
      assert s == d + rest;
    }
  }

  /** `parseInt` on `k.toString()` followed by a tail that `parseInt`
      stops at. */
  lemma ParseTrimmedFromInt(k: int, rest: string, defaultRadix: bool)
    requires |rest| == 0 || !Decimal.IsDigit(rest[0])
    requires defaultRadix ==> rest == []
    ensures ParseTrimmed(FromInt(k) + rest, defaultRadix) == Some(k)
  {
    SplitFromInt(k, rest);
    MagnitudeOfFromNat(if k < 0 then -k else k, rest, defaultRadix);
  }

  /** `parseInt(s, 10)` reads the leading integer of `s` and ignores what
      follows it, so `"12abc"` reads as 12. */
  lemma ParseIntLeadingInteger(k: int, rest: string)
    requires |rest| == 0 || !Decimal.IsDigit(rest[0])
    ensures ParseInt(FromInt(k) + rest) == Some(k)
  {
    StartsWithoutWhitespace(k, rest);
    ParseTrimmedFromInt(k, rest, false);
  }

  lemma StartsWithoutWhitespace(k: int, rest: string)
    ensures TrimStart(FromInt(k) + rest) == FromInt(k) + rest
  {
    var s := FromInt(k) + rest;
    assert s[0] == FromInt(k)[0];
    assert s[0] == '-' || Decimal.IsDigit(s[0]);
  }

  /** Reading back the decimal rendering of an integer, with radix 10 or
      with the default radix, gives the integer back. */
  lemma ParseIntFromInt(k: int)
    ensures ParseInt(FromInt(k)) == Some(k)
    ensures ParseIntAuto(FromInt(k)) == Some(k)
  {
    var s := FromInt(k);
    assert s + [] == s;
    StartsWithoutWhitespace(k, []);
    ParseTrimmedFromInt(k, [], false);
    ParseTrimmedFromInt(k, [], true);
  }
}

=== FILE: quiz_model.dfy ===
/** The quiz shapes that the Home-v1, Home-v3 and Home-v5 pages declare
    identically (`Option`, `Answer`, `Question`, `Quiz`), and the logic the
    three pages share word for word: the per-question answer check
    (`handleAnswerCheck`), the score `calculateScore` counts, and, for
    Home-v1 and Home-v3, the selection of an answer by question id. */
module QuizModel {
  import opened Wrappers
  import opened Js
  import opened Counting

  /** One option of a multiple-choice question. */
  datatype AnswerOption = AnswerOption(id: int, text: string, isCorrect: bool)

  /** The nested answer key of a question. Only `options` is read by the
      check; `true_answer`/`false_answer` travel here unread. */
  datatype Answer = Answer(options: seq<AnswerOption>, trueAnswer: Option<bool>, falseAnswer: Option<bool>)

  /** A question as the pages hold it: the fetched fields plus the
      user's `selectedOption` (absent until something is selected). The
      true/false key the check reads is the question's own `trueAnswer`. */
  datatype Question = Question(
    id: int,
    questionType: string,
    text: string,
    explanation: string,
    answer: Option<Answer>,
    selectedOption: Option<string>,
    trueAnswer: Option<bool>)

  datatype Quiz = Quiz(
    id: Option<int>,
    name: string,
    description: string,
    createdAt: string,
    updatedAt: string,
    createdBy: int,
    questions: seq<Question>)

  /** Option `i` is the first one whose id is `id`: the option that
      `Array.prototype.find` returns. */
  predicate IsFirstMatch(options: seq<AnswerOption>, i: int, id: int) {
    && 0 <= i < |options|
    && options[i].id == id
    && forall j :: 0 <= j < i ==> options[j].id != id
  }

  /** The scan of `options.find(...)` from position `k` on. */
  function FindIndexFrom(options: seq<AnswerOption>, id: int, k: nat): (r: Option<nat>)
    requires k <= |options|
    requires forall j :: 0 <= j < k ==> options[j].id != id
    ensures r.Some? ==> IsFirstMatch(options, r.value, id)
    ensures r.None? ==> forall j :: 0 <= j < |options| ==> options[j].id != id
    decreases |options| - k
  {
    if k == |options| then None
    else if options[k].id == id then Some(k)
    else FindIndexFrom(options, id, k + 1)
  }

  /** `options.find(option => option.id === id)`, where a `NaN` id (`None`)
      equals no option id. */
  function FindOption(options: seq<AnswerOption>, id: Option<int>): (r: Option<AnswerOption>)
    ensures r.None? <==> id.None? || forall j :: 0 <= j < |options| ==> options[j].id != id.value
    ensures r.Some? ==> id.Some? && exists i :: IsFirstMatch(options, i, id.value) && r.value == options[i]
  {
    if id.None? then None
    else
      match FindIndexFrom(options, id.value, 0)
      case None => None
      case Some(i) => Some(options[i])
  }

  /** At most one option is the first match of an id. */
  lemma FirstMatchUnique(options: seq<AnswerOption>, i: int, j: int, id: int)
    requires IsFirstMatch(options, i, id) && IsFirstMatch(options, j, id)
    ensures i == j
  {
  }

  /** The selection `sel` of a multiple-choice question picks a correct
      option: it parses (radix 10) to an id whose first option is marked
      correct. */
  predicate PicksCorrectOption(answer: Option<Answer>, sel: string) {
    && answer.Some?
    && ParseInt(sel).Some?
    && exists i :: 0 <= i < |answer.value.options| && IsFirstMatch(answer.value.options, i, ParseInt(sel).value)
         && answer.value.options[i].isCorrect
  }

  /** `handleAnswerCheck`: `null` (here `None`) for a falsy selection or an
      unknown question type; for "mc" whether the selected option is
      correct; for "tf" whether `true_answer` equals `selectedOption === "true"`. */
  function AnswerCheck(q: Question): (r: Option<bool>)
    ensures r.None? <==> !Truthy(q.selectedOption) || (q.questionType != "mc" && q.questionType != "tf")
    ensures Truthy(q.selectedOption) && q.questionType == "mc" ==>
      (r == Some(true) <==> PicksCorrectOption(q.answer, q.selectedOption.value))
    ensures Truthy(q.selectedOption) && q.questionType == "tf" ==>
      (r == Some(true) <==>
        || (q.selectedOption.value == "true" && q.trueAnswer == Some(true))
        || (q.selectedOption.value != "true" && q.trueAnswer == Some(false)))
  {
    if !Truthy(q.selectedOption) then None
    else if q.questionType == "mc" then
      var found := if q.answer.Some? then FindOption(q.answer.value.options, ParseInt(q.selectedOption.value)) else None;
      Some(found.Some? && found.value.isCorrect)
    else if q.questionType == "tf" then
      Some(q.trueAnswer == Some(q.selectedOption.value == "true"))
    else None
  }

  /** `if (handleAnswerCheck(question))`: only a `true` result counts. */
  predicate IsCorrect(q: Question) {
    AnswerCheck(q) == Some(true)
  }

  /** `calculateScore` of Home-v1 and Home-v5: `null` without a quiz,
      otherwise the number of questions whose check is `true`. */
  function CalculateScore(quiz: Option<Quiz>): (r: Option<nat>)
    ensures r.None? <==> quiz.None?
    ensures quiz.Some? ==> r.value <= |quiz.value.questions|
    ensures quiz.Some? ==>
      (r.value == |quiz.value.questions| <==> forall i :: 0 <= i < |quiz.value.questions| ==> IsCorrect(quiz.value.questions[i]))
    ensures quiz.Some? ==>
      (r.value == 0 <==> forall i :: 0 <= i < |quiz.value.questions| ==> !IsCorrect(quiz.value.questions[i]))
  {
    match quiz
    case None => None
    case Some(z) => Some(CountWhere(z.questions, IsCorrect))
  }

  /** `questions.map(...)` in `handleOptionSelect`: every question whose id
      is `questionId` gets `selectedOption: optionValue`. */
  function MarkSelected(qs: seq<Question>, questionId: int, optionValue: string): (r: seq<Question>)
    ensures |r| == |qs|
    ensures forall i :: 0 <= i < |qs| && qs[i].id == questionId ==>
      r[i] == qs[i].(selectedOption := Some(optionValue))
    ensures forall i :: 0 <= i < |qs| && qs[i].id != questionId ==> r[i] == qs[i]
  {
    if |qs| == 0 then []
    else
      var head := if qs[0].id == questionId then qs[0].(selectedOption := Some(optionValue)) else qs[0];
      [head] + MarkSelected(qs[1..], questionId, optionValue)
  }

  /** `handleOptionSelect(questionId, optionValue)` of Home-v1 and Home-v3:
      without a quiz nothing happens; otherwise exactly the questions with a
      matching id take the value, in place, and nothing else changes. */
  function SelectById(quiz: Option<Quiz>, questionId: int, optionValue: string): (r: Option<Quiz>)
    ensures quiz.None? ==> r.None?
    ensures quiz.Some? ==> r.Some? && r.value.(questions := quiz.value.questions) == quiz.value
    ensures quiz.Some? ==> |r.value.questions| == |quiz.value.questions|
    ensures quiz.Some? ==> forall i :: 0 <= i < |quiz.value.questions| ==>
      var q := quiz.value.questions[i];
      r.value.questions[i] == if q.id == questionId then q.(selectedOption := Some(optionValue)) else q
  {
    match quiz
    case None => None
    case Some(z) => Some(z.(questions := MarkSelected(z.questions, questionId, optionValue)))
  }

  /** Selecting twice for the same question id keeps only the second value. */
  lemma SelectByIdLastWriteWins(quiz: Option<Quiz>, questionId: int, first: string, second: string)
    ensures SelectById(SelectById(quiz, questionId, first), questionId, second) == SelectById(quiz, questionId, second)
  {
    if quiz.Some? {
      var a := SelectById(SelectById(quiz, questionId, first), questionId, second).value;
      var b := SelectById(quiz, questionId, second).value;
      assert a.questions == b.questions;
    }
  }

  /** A multiple-choice selection whose id is unknown, or that is not a
      number at all, or a question without an answer key, is simply wrong:
      never an error and never `null`. */
  lemma UnmatchedMcSelectionIsIncorrect(q: Question)
    requires Truthy(q.selectedOption) && q.questionType == "mc"
    requires || q.answer.None?
             || ParseInt(q.selectedOption.value).None?
             || forall j :: 0 <= j < |q.answer.value.options| ==> q.answer.value.options[j].id != ParseInt(q.selectedOption.value).value
    ensures AnswerCheck(q) == Some(false)
  {
  }

  /** A true/false question without `true_answer` is never correct. */
  lemma MissingTrueAnswerIsIncorrect(q: Question)
    requires Truthy(q.selectedOption) && q.questionType == "tf" && q.trueAnswer.None?
    ensures AnswerCheck(q) == Some(false)
  {
  }

  /** The option buttons send `option.id.toString()`: that selection is
      checked against exactly the (first) option with that id. */
  lemma OptionButtonValueReadsBack(q: Question, k: int)
    requires q.questionType == "mc" && q.selectedOption == Some(FromInt(k))
    ensures IsCorrect(q) <==>
      q.answer.Some? && exists i :: 0 <= i < |q.answer.value.options| && IsFirstMatch(q.answer.value.options, i, k)
                                    && q.answer.value.options[i].isCorrect
  {
    ParseIntFromInt(k);
  }

  /** The answer key of a question with options 1 (wrong) and 2 (right). */
  function TwoOptionKey(): Option<Answer> {
    Some(Answer([AnswerOption(1, "A", false), AnswerOption(2, "B", true)], None, None))
  }

  /** With options 1 (wrong) and 2 (right), selecting "2" is correct. */
  lemma McCheckRightOption(q: Question)
    requires q.questionType == "mc" && q.answer == TwoOptionKey() && q.selectedOption == Some("2")
    ensures AnswerCheck(q) == Some(true)
  {
    var options := q.answer.value.options;
    assert FromInt(2) == "2";
    assert IsFirstMatch(options, 1, 2) && options[1].isCorrect;
    OptionButtonValueReadsBack(q, 2);
  }

  /** With options 1 (wrong) and 2 (right), selecting "1" is wrong. */
  lemma McCheckWrongOption(q: Question)
    requires q.questionType == "mc" && q.answer == TwoOptionKey() && q.selectedOption == Some("1")
    ensures AnswerCheck(q) == Some(false)
  {
    var options := q.answer.value.options;
    assert FromInt(1) == "1";
    assert IsFirstMatch(options, 0, 1) && !options[0].isCorrect;
    forall i | 0 <= i < |options| && IsFirstMatch(options, i, 1)
      ensures !options[i].isCorrect
    {
      FirstMatchUnique(options, i, 0, 1);
    }
    OptionButtonValueReadsBack(q, 1);
  }

  /** With options 1 and 2, the button value of any other id matches
      nothing and is wrong. */
  lemma McCheckUnknownOption(q: Question, k: int)
    requires q.questionType == "mc" && q.answer == TwoOptionKey() && q.selectedOption == Some(FromInt(k))
    requires k != 1 && k != 2
    ensures AnswerCheck(q) == Some(false)
  {
    var options := q.answer.value.options;
    assert |options| == 2 && options[0].id == 1 && options[1].id == 2;
    assert forall i :: 0 <= i < |options| ==> !IsFirstMatch(options, i, k);
    OptionButtonValueReadsBack(q, k);
  }
}

=== FILE: serializer.dfy ===
/** `QuizQuestionSerializer` of the Django API. Its base representation
    holds `id`, `question_type`, `text` and `explanation`; for a
    multiple-choice or true/false question, `to_representation` then
    flattens the nested answer records into the same object, the field
    `key` of record `i` (counted from 0) landing under `key_{i+1}`. */
module Serializer {
  import opened Wrappers
  import Decimal

  /** A JSON value as the serializers emit it. */
  datatype Value =
    | NullValue
    | BoolValue(b: bool)
    | IntValue(i: int)
    | StringValue(s: string)
    | ListValue(items: seq<Value>)
    | ObjectValue(entries: seq<(string, Value)>)

  /** A serialized record: its fields in declaration order. */
  type Record = seq<(string, Value)>

  /** A `MultipleChoiceQuestion` row, with the `answers` JSON it serializes. */
  datatype MultipleChoiceQuestion = MultipleChoiceQuestion(id: int, answers: Value)

  /** A `TrueFalseQuestion` row. */
  datatype TrueFalseQuestion = TrueFalseQuestion(id: int, trueAnswer: bool, falseAnswer: bool)

  /** A `QuizQuestion` row with its related `mc_question` and `tf_question`
      rows. */
  datatype QuizQuestion = QuizQuestion(
    id: int,
    questionType: string,
    text: string,
    explanation: Option<string>,
    mcQuestion: seq<MultipleChoiceQuestion>,
    tfQuestion: seq<TrueFalseQuestion>)

  predicate DistinctKeys(r: Record) {
    forall i, j :: 0 <= i < j < |r| ==> r[i].0 != r[j].0
  }

  /** `MultipleChoiceQuestionSerializer`: fields `id`, `answers`. */
  function McRecord(m: MultipleChoiceQuestion): Record {
    [("id", IntValue(m.id)), ("answers", m.answers)]
  }

  /** `TrueFalseQuestionSerializer`: fields `id`, `true_answer`, `false_answer`. */
  function TfRecord(t: TrueFalseQuestion): Record {
    [("id", IntValue(t.id)), ("true_answer", BoolValue(t.trueAnswer)), ("false_answer", BoolValue(t.falseAnswer))]
  }

  function McRecords(ms: seq<MultipleChoiceQuestion>): (r: seq<Record>)
    ensures |r| == |ms|
    ensures forall i :: 0 <= i < |ms| ==> r[i] == McRecord(ms[i])
  {
    if |ms| == 0 then [] else [McRecord(ms[0])] + McRecords(ms[1..])
  }

  function TfRecords(ts: seq<TrueFalseQuestion>): (r: seq<Record>)
    ensures |r| == |ts|
    ensures forall i :: 0 <= i < |ts| ==> r[i] == TfRecord(ts[i])
  {
    if |ts| == 0 then [] else [TfRecord(ts[0])] + TfRecords(ts[1..])
  }

  /** `get_question_fields`: the nested records of an "mc" or "tf"
      question, one per related row, each with its serializer's keys;
      `None` for any other question type. */
  function GetQuestionFields(q: QuizQuestion): (r: Option<seq<Record>>)
    ensures r.Some? <==> q.questionType == "mc" || q.questionType == "tf"
    ensures q.questionType == "mc" ==>
      && |r.value| == |q.mcQuestion|
      && forall i :: 0 <= i < |r.value| ==>
           && |r.value[i]| == 2
           && r.value[i][0] == ("id", IntValue(q.mcQuestion[i].id))
           && r.value[i][1] == ("answers", q.mcQuestion[i].answers)
    ensures q.questionType == "tf" ==>
      && |r.value| == |q.tfQuestion|
      && forall i :: 0 <= i < |r.value| ==>
           && |r.value[i]| == 3
           && r.value[i][0] == ("id", IntValue(q.tfQuestion[i].id))
           && r.value[i][1] == ("true_answer", BoolValue(q.tfQuestion[i].trueAnswer))
           && r.value[i][2] == ("false_answer", BoolValue(q.tfQuestion[i].falseAnswer))
    ensures r.Some? ==> forall i :: 0 <= i < |r.value| ==> DistinctKeys(r.value[i])
  {
    if q.questionType == "mc" then Some(McRecords(q.mcQuestion))
    else if q.questionType == "tf" then Some(TfRecords(q.tfQuestion))
    else None
  }

  /** The keys of `Meta.fields`. */
  const BaseKeys: set<string> := {"id", "question_type", "text", "explanation"}

  /** `super().to_representation(instance)`: the `Meta.fields` of the row. */
  function BaseRepresentation(q: QuizQuestion): (r: map<string, Value>)
    ensures r.Keys == BaseKeys
  {
    map[
      "id" := IntValue(q.id),
      "question_type" := StringValue(q.questionType),
      "text" := StringValue(q.text),
      "explanation" := if q.explanation.Some? then StringValue(q.explanation.value) else NullValue]
  }

  /** `f"{key}_{n}"`. */
  function Suffixed(key: string, n: nat): string {
    key + "_" + Decimal.FromNat(n)
  }

  /** The greatest index of `c` in `s`, or -1. */
  function LastIndexOf(s: string, c: char): (r: int)
    ensures -1 <= r < |s|
  {
    if |s| == 0 then -1
    else if s[|s| - 1] == c then |s| - 1
    else LastIndexOf(s[..|s| - 1], c)
  }

  /** In `key_digits` the last underscore is the one before the digits. */
  lemma {:induction false} LastUnderscoreOfSuffixed(key: string, digits: string)
    requires Decimal.AllDigits(digits)
    ensures LastIndexOf(key + "_" + digits, '_') == |key|
  {
    var s := key + "_" + digits;
    if |digits| > 0 {
      var shorter := digits[..|digits| - 1];
      assert s[|s| - 1] == digits[|digits| - 1];
      assert s[..|s| - 1] == key + "_" + shorter;
      LastUnderscoreOfSuffixed(key, shorter);
    }
  }

  /** Distinct (key, number) pairs give distinct suffixed keys: the part
      after the last underscore is all digits, so it splits back uniquely. */
  lemma SuffixedInjective(k1: string, n1: nat, k2: string, n2: nat)
    ensures Suffixed(k1, n1) == Suffixed(k2, n2) ==> k1 == k2 && n1 == n2
  {
    var s1, s2 := Suffixed(k1, n1), Suffixed(k2, n2);
    if s1 == s2 {
      var d1, d2 := Decimal.FromNat(n1), Decimal.FromNat(n2);
      LastUnderscoreOfSuffixed(k1, d1);
      LastUnderscoreOfSuffixed(k2, d2);
      assert |k1| == |k2|;
      assert k1 == s1[..|k1|];
      assert k2 == s2[..|k2|];
      assert d1 == s1[|k1| + 1..];
      assert d2 == s2[|k2| + 1..];
      Decimal.FromNatInjective(n1, n2);
    }
  }

  predicate EndsInDigit(s: string) {
    |s| > 0 && Decimal.IsDigit(s[|s| - 1])
  }

  /** Every suffixed key ends in a digit, and no base key does, so the
      flattening never overwrites `id`, `question_type`, `text` or
      `explanation`. */
  lemma SuffixedIsNotBaseKey(key: string, n: nat)
    ensures EndsInDigit(Suffixed(key, n))
    ensures Suffixed(key, n) !in BaseKeys
  {
    var s := Suffixed(key, n);
    var d := Decimal.FromNat(n);
    assert s[|s| - 1] == d[|d| - 1];
    assert !EndsInDigit("id") && !EndsInDigit("question_type") && !EndsInDigit("text") && !EndsInDigit("explanation");
  }

  /** One assignment of the nested loops: field `key` of the record
      numbered `number`, with its value. */
  datatype Write = Write(key: string, number: nat, value: Value)

  /** The writes of the inner loop for one record, numbered `n`. */
  function RecordWrites(rec: Record, n: nat): (w: seq<Write>)
    ensures |w| == |rec|
    ensures forall j :: 0 <= j < |rec| ==> w[j] == Write(rec[j].0, n, rec[j].1)
  {
    if |rec| == 0 then [] else [Write(rec[0].0, n, rec[0].1)] + RecordWrites(rec[1..], n)
  }

  /** The number of fields across all records. */
  function TotalKeys(fields: seq<Record>): nat {
    if |fields| == 0 then 0 else |fields[0]| + TotalKeys(fields[1..])
  }

  /** All writes of the nested loops, in loop order, the first record
      numbered `n`: one per field, none numbered below `n`. */
  function FieldWrites(fields: seq<Record>, n: nat): (w: seq<Write>)
    ensures |w| == TotalKeys(fields)
    ensures forall p :: 0 <= p < |w| ==> w[p].number >= n
  {
    if |fields| == 0 then [] else RecordWrites(fields[0], n) + FieldWrites(fields[1..], n + 1)
  }

  /** The key a write assigns: `f"{key}_{number}"`. */
  function Target(x: Write): string {
    Suffixed(x.key, x.number)
  }

  /** `representation[f"{key}_{number}"] = value` for each write, in order:
      the old keys stay and every target becomes a key. */
  function Apply(m: map<string, Value>, w: seq<Write>): (r: map<string, Value>)
    ensures m.Keys <= r.Keys
    ensures forall i :: 0 <= i < |w| ==> Target(w[i]) in r
    decreases |w|
  {
    if |w| == 0 then m else Apply(m[Target(w[0]) := w[0].value], w[1..])
  }

  /** Applying writes adds no key other than their targets. */
  lemma {:induction false} ApplyAddsOnlyTargets(m: map<string, Value>, w: seq<Write>, k: string)
    requires k in Apply(m, w) && k !in m
    ensures exists i :: 0 <= i < |w| && Target(w[i]) == k
    decreases |w|
  {
    if |w| > 0 {
      var m' := m[Target(w[0]) := w[0].value];
      if k != Target(w[0]) {
        ApplyAddsOnlyTargets(m', w[1..], k);
        var i :| 0 <= i < |w[1..]| && Target(w[1..][i]) == k;
        assert w[1..][i] == w[i + 1];
      }
    }
  }

  /** `to_representation`: the base fields, then the flattened nested
      records for "mc" and "tf" questions. */
  function ToRepresentation(q: QuizQuestion): (r: map<string, Value>)
    ensures BaseKeys <= r.Keys
    ensures forall k :: k in r && k !in BaseKeys ==> EndsInDigit(k)
    ensures q.questionType != "mc" && q.questionType != "tf" ==> r == BaseRepresentation(q)
  {
    var representation := BaseRepresentation(q);
    match GetQuestionFields(q)
    case None => representation
    case Some(fields) =>
      var w := FieldWrites(fields, 1);
      var r := Apply(representation, w);
      assert forall k :: k in r && k !in BaseKeys ==> EndsInDigit(k) by {
        forall k | k in r && k !in BaseKeys
          ensures EndsInDigit(k)
        {
          ApplyAddsOnlyTargets(representation, w, k);
          var i :| 0 <= i < |w| && Target(w[i]) == k;
          SuffixedIsNotBaseKey(w[i].key, w[i].number);
        }
      }
      r
  }

  predicate DistinctTargets(w: seq<Write>) {
    forall i, j :: 0 <= i < j < |w| ==> Target(w[i]) != Target(w[j])
  }

  /** No two writes share both key and number. */
  predicate DistinctPairs(w: seq<Write>) {
    forall i, j :: 0 <= i < j < |w| ==> w[i].key != w[j].key || w[i].number != w[j].number
  }

  /** Distinct (key, number) pairs assign distinct keys. */
  lemma DistinctPairsDistinctTargets(w: seq<Write>)
    requires DistinctPairs(w)
    ensures DistinctTargets(w)
  {
    forall i, j | 0 <= i < j < |w|
      ensures Target(w[i]) != Target(w[j])
    {
      SuffixedInjective(w[i].key, w[i].number, w[j].key, w[j].number);
    }
  }

  /** Writing distinct fresh keys adds exactly those entries and keeps the
      old ones. */
  lemma {:induction false} ApplyFresh(m: map<string, Value>, w: seq<Write>)
    requires DistinctTargets(w)
    requires forall i :: 0 <= i < |w| ==> Target(w[i]) !in m
    ensures |Apply(m, w)| == |m| + |w|
    ensures forall k :: k in m ==> k in Apply(m, w) && Apply(m, w)[k] == m[k]
    ensures forall i :: 0 <= i < |w| ==> Target(w[i]) in Apply(m, w) && Apply(m, w)[Target(w[i])] == w[i].value
    decreases |w|
  {
    if |w| > 0 {
      var m' := m[Target(w[0]) := w[0].value];
      var rest := w[1..];
      assert |m'| == |m| + 1;
      assert DistinctTargets(rest) by {
        forall i, j | 0 <= i < j < |rest|
          ensures Target(rest[i]) != Target(rest[j])
        {
          assert rest[i] == w[i + 1] && rest[j] == w[j + 1];
        }
      }
      forall i | 0 <= i < |rest|
        ensures Target(rest[i]) !in m'
      {
        assert rest[i] == w[i + 1];
      }
      ApplyFresh(m', rest);
      var r := Apply(m, w);
      assert r == Apply(m', rest);
      forall i | 0 <= i < |w|
        ensures Target(w[i]) in r && r[Target(w[i])] == w[i].value
      {
        if i > 0 {
          assert w[i] == rest[i - 1];
        }
      }
    }
  }

  lemma ConcatDistinct(a: seq<Write>, b: seq<Write>)
    requires DistinctPairs(a) && DistinctPairs(b)
    requires forall i, j :: 0 <= i < |a| && 0 <= j < |b| ==> a[i].number != b[j].number
    ensures DistinctPairs(a + b)
  {
    var w := a + b;
    forall i, j | 0 <= i < j < |w|
      ensures w[i].key != w[j].key || w[i].number != w[j].number
    {
      if j < |a| {
        assert w[i] == a[i] && w[j] == a[j];
      } else if i >= |a| {
        assert w[i] == b[i - |a|] && w[j] == b[j - |a|];
      } else {
        assert w[i] == a[i] && w[j] == b[j - |a|];
      }
    }
  }

  /** Records with distinct keys give writes with distinct (key, number)
      pairs: within a record the keys differ, across records the numbers. */
  lemma {:induction false} FieldWritesDistinct(fields: seq<Record>, n: nat)
    requires forall i :: 0 <= i < |fields| ==> DistinctKeys(fields[i])
    ensures DistinctPairs(FieldWrites(fields, n))
  {
    if |fields| > 0 {
      var a := RecordWrites(fields[0], n);
      var b := FieldWrites(fields[1..], n + 1);
      FieldWritesDistinct(fields[1..], n + 1);
      ConcatDistinct(a, b);
    }
  }

  /** The position of the first write for record `i`. */
  function Offset(fields: seq<Record>, i: nat): nat
    requires i <= |fields|
  {
    if i == 0 then 0 else |fields[0]| + Offset(fields[1..], i - 1)
  }

  /** Field `j` of record `i` is written with number `n + i`, at position
      `Offset(fields, i) + j`. */
  lemma {:induction false} FieldWritesAt(fields: seq<Record>, n: nat, i: nat, j: nat)
    requires i < |fields| && j < |fields[i]|
    ensures Offset(fields, i) + j < |FieldWrites(fields, n)|
    ensures FieldWrites(fields, n)[Offset(fields, i) + j] == Write(fields[i][j].0, n + i, fields[i][j].1)
  {
    var a := RecordWrites(fields[0], n);
    var rest := fields[1..];
    var b := FieldWrites(rest, n + 1);
    var w := FieldWrites(fields, n);
    assert w == a + b;
    assert |a| == |fields[0]|;
    if i == 0 {
      assert w[j] == a[j];
    } else {
      FieldWritesAt(rest, n + 1, i - 1, j);
      assert rest[i - 1] == fields[i];
      var p := Offset(rest, i - 1) + j;
      assert Offset(fields, i) == |fields[0]| + Offset(rest, i - 1);
      assert p < |b|;
      assert w[|a| + p] == b[p];
    }
  }

  /** The flattening of records with distinct keys into a base object whose
      keys never end in a digit: every field `k` of record `i` appears under
      `k_{i+1}` with its value, the base entries stay as they were, and the
      object grows by exactly the number of nested fields. */
  lemma Flatten(base: map<string, Value>, fields: seq<Record>)
    requires forall k :: k in base ==> !EndsInDigit(k)
    requires forall i :: 0 <= i < |fields| ==> DistinctKeys(fields[i])
    ensures var r := Apply(base, FieldWrites(fields, 1));
      && |r| == |base| + TotalKeys(fields)
      && (forall k :: k in base ==> k in r && r[k] == base[k])
      && (forall i, j :: 0 <= i < |fields| && 0 <= j < |fields[i]| ==>
            Suffixed(fields[i][j].0, i + 1) in r && r[Suffixed(fields[i][j].0, i + 1)] == fields[i][j].1)
  {
    var w := FieldWrites(fields, 1);
    FieldWritesDistinct(fields, 1);
    DistinctPairsDistinctTargets(w);
    TargetsAvoidBase(base, w);
    ApplyFresh(base, w);
    var r := Apply(base, w);
    forall i, j | 0 <= i < |fields| && 0 <= j < |fields[i]|
      ensures Suffixed(fields[i][j].0, i + 1) in r && r[Suffixed(fields[i][j].0, i + 1)] == fields[i][j].1
    {
      WrittenAt(r, fields, i, j);
    }
  }

  /** A map holding every write of the nested loops holds field `j` of
      record `i` under its suffixed key. */
  lemma WrittenAt(r: map<string, Value>, fields: seq<Record>, i: nat, j: nat)
    requires i < |fields| && j < |fields[i]|
    requires forall p :: 0 <= p < |FieldWrites(fields, 1)| ==>
      Target(FieldWrites(fields, 1)[p]) in r && r[Target(FieldWrites(fields, 1)[p])] == FieldWrites(fields, 1)[p].value
    ensures Suffixed(fields[i][j].0, i + 1) in r && r[Suffixed(fields[i][j].0, i + 1)] == fields[i][j].1
  {
    FieldWritesAt(fields, 1, i, j);
    var p := Offset(fields, i) + j;
    var x := FieldWrites(fields, 1)[p];
    assert Target(x) in r && r[Target(x)] == x.value;
  }

  /** No write targets a key of a base object whose keys never end in a
      digit. */
  lemma TargetsAvoidBase(base: map<string, Value>, w: seq<Write>)
    requires forall k :: k in base ==> !EndsInDigit(k)
    ensures forall p :: 0 <= p < |w| ==> Target(w[p]) !in base
  {
    forall p | 0 <= p < |w|
      ensures Target(w[p]) !in base
    {
      SuffixedIsNotBaseKey(w[p].key, w[p].number);
    }
  }

  /** For an "mc" or "tf" question, every field of nested record `i` is in
      the representation under `key_{i+1}`, the base fields are untouched,
      and the representation has the 4 base keys plus one key per nested
      field. Any other question type leaves the base representation as it
      is. */
  lemma RepresentationShape(q: QuizQuestion)
    ensures q.questionType != "mc" && q.questionType != "tf" ==> ToRepresentation(q) == BaseRepresentation(q)
    ensures q.questionType == "mc" || q.questionType == "tf" ==>
      var fields := GetQuestionFields(q).value;
      var r := ToRepresentation(q);
      && |r| == 4 + TotalKeys(fields)
      && (forall k :: k in BaseKeys ==> k in r && r[k] == BaseRepresentation(q)[k])
      && (forall i, j :: 0 <= i < |fields| && 0 <= j < |fields[i]| ==>
            Suffixed(fields[i][j].0, i + 1) in r && r[Suffixed(fields[i][j].0, i + 1)] == fields[i][j].1)
  {
    if q.questionType == "mc" || q.questionType == "tf" {
      var base := BaseRepresentation(q);
      assert forall k :: k in base ==> !EndsInDigit(k) by {
        assert !EndsInDigit("id") && !EndsInDigit("question_type") && !EndsInDigit("text") && !EndsInDigit("explanation");
      }
      assert |BaseKeys| == 4;
      Flatten(base, GetQuestionFields(q).value);
    }
  }

  /** Concretely: an "mc" question with `n` rows gains `2 * n` keys, a "tf"
      question with `n` rows `3 * n`. */
  lemma RepresentationSize(q: QuizQuestion)
    ensures q.questionType == "mc" ==> |ToRepresentation(q)| == 4 + 2 * |q.mcQuestion|
    ensures q.questionType == "tf" ==> |ToRepresentation(q)| == 4 + 3 * |q.tfQuestion|
  {
    RepresentationShape(q);
    if q.questionType == "mc" || q.questionType == "tf" {
      UniformTotal(GetQuestionFields(q).value, if q.questionType == "mc" then 2 else 3);
    }
  }

  /** Records of one common length `w` hold `w` keys each. */
  lemma {:induction false} UniformTotal(fields: seq<Record>, w: nat)
    requires forall i :: 0 <= i < |fields| ==> |fields[i]| == w
    ensures TotalKeys(fields) == w * |fields|
  {
    if |fields| > 0 {
      UniformTotal(fields[1..], w);
    }
  }
}

=== FILE: wrappers.dfy ===
/** Optional values: JavaScript's `undefined`/`null` and Python's `None`
    are both modelled as `None`. */
module Wrappers {

  datatype Option<+T> = None | Some(value: T)
}
